=== FILE: README.md ===
# Akari editor: grid model and game identifier

This project is a Dafny model of the logic inside the `Editor` component of
the Akari (Light Up) puzzle editor. The model covers three things:

- **The surface list.** The grid state is a list of *surfaces*. A surface is
  an opaque cell at `(x, y)` with a label: `"empty"` or a clue from 0 to 4.
- **The two edits.** A click toggles a cell: it removes every surface at the
  cell, or appends an unlabelled one when there is none. A key press
  relabels the surface under the focus.
- **The game identifier.** This is the text the editor links to Simon
  Tatham's Light Up player with. It is the header `<width>x<height>:`
  followed by a row-major scan of the grid:
  - an opaque cell is written as `B`, or as its clue digit;
  - each maximal run of other cells is written as a *run token*: `n / 26`
    copies of `z`, then the character with code `96 + n % 26`.

Modules, one per file:

- `Wrappers` (`wrappers.dfy`): `Option` and `Result`.
- `Surfaces` (`surfaces.dfy`): surfaces, lookup, toggle (`Toggle`) and
  relabelling (`SetLabel`), with the invariant "at most one surface per
  coordinate" (`Distinct`).
- `Decimal` (`decimal.dfy`): decimal notation of the header's numbers, and
  its inverse.
- `Runs` (`runs.dfy`): `serializeRun` as `SerializeRun`, and a reader for
  run tokens.
- `Scan` (`scan.dfy`): the row-major cell sequence of the grid (`Cells`).
  Also the token view of the scan (`Items`): runs flushed before each opaque
  cell and once at the end.
- `GameIds` (`game_id.dfy`): the identifier, in two forms:
  - `GameId`, a recursive definition;
  - `ComputeGameId`, the editor's nested loop, proved equal to `GameId`.
- `Decoder` (`decoder.dfy`): reads an identifier back to its dimensions and
  cells. This inverse is not in the source. It gives the encoder a partner:
  it proves the identifier is a faithful, injective description of every grid
  of at least one cell.
- `Viewer` (`viewer.dfy`): reads the identifier with the Light Up format's
  alphabet, where every letter `a`..`z` stands for 1..26 cells. This module
  states the discrepancy recorded under Findings and proves a corrected
  encoder.

Two facts about the identifier shape the model:

- **The 2 by 2 example.** A 2 by 2 grid with an unlabelled opaque cell at the
  top left and clue 3 at the bottom right is written `2x2:Bb3`. The two cells
  between the opaque ones in scan order form a run of 2.
  `GameIds.ExampleTwoByTwo` proves it.
- **Two readers.** `Decoder` reads the backtick that ends a run whose length
  is a multiple of 26, so it reads back everything the editor writes for a
  grid of at least one cell.
  `Viewer` holds the strict Light Up alphabet: letters `a`..`z`, `B` and the
  digits `0`..`4`.

## Model

| member | source | states |
|---|---|---|
| Surfaces.Find | src/app/components/Editor.tsx:126 | `surfaces.find`: found exactly when some surface is at `(x, y)`. The hit is the first surface of the list at `(x, y)`. With one surface per coordinate, it is the only surface there. |
| Surfaces.LabelAt | src/app/components/Editor.tsx:126-131 | The cell's label is present exactly when a surface is at `(x, y)`. It is the label of the first surface there, and with one surface per coordinate, of the only one. |
| Surfaces.Without | src/app/components/Editor.tsx:37 | The filter drops every copy of each surface at `(x, y)` and keeps every copy of every other surface, with its multiplicity and in its original relative order. |
| Surfaces.Toggle | src/app/components/Editor.tsx:35-39 | On an empty cell, a click appends exactly `Surface(x, y, Empty)`. On an opaque cell, it removes every surface there and keeps every copy of all others, in order. |
| Surfaces.ToggleLabelAt | src/app/components/Editor.tsx:35-39 | After a click, the cell is opaque and unlabelled exactly when it was not opaque before. |
| Surfaces.ToggleElsewhere | src/app/components/Editor.tsx:35-39 | A click leaves every other coordinate's cell as it was. |
| Surfaces.ToggleDistinct | src/app/components/Editor.tsx:35-39 | A click keeps at most one surface per coordinate. |
| Surfaces.WithoutDistinct | src/app/components/Editor.tsx:37 | Removal keeps at most one surface per coordinate. |
| Surfaces.ToggleTwiceUnmarked | src/app/components/Editor.tsx:35-39 | Two clicks on a cell that is not opaque give back the original list exactly. |
| Surfaces.ToggleTwiceMarked | src/app/components/Editor.tsx:35-39 | Two clicks on an opaque cell leave one unlabelled surface there, at the end of the list, so any clue is lost. |
| Surfaces.SetLabel | src/app/components/Editor.tsx:52-82 | With no surface at the focus, nothing changes. Otherwise only the labels of surfaces at the focus change, to the new label. Length, order and all coordinates stay. |
| Surfaces.SetLabelLabelAt | src/app/components/Editor.tsx:52-82 | After relabelling, the focused cell carries the new label if it was opaque. No cell changes opacity. |
| Surfaces.SetLabelElsewhere | src/app/components/Editor.tsx:66-82 | Relabelling leaves the cell at every other coordinate as it was. |
| Surfaces.SetLabelTwice | src/app/components/Editor.tsx:66-82 | Of two relabellings of one cell, only the last counts. |
| Surfaces.ToggleAfterSetLabel | src/app/components/Editor.tsx:35-82 | A click on a relabelled cell gives the same list as a click on it before the relabelling. |
| Runs.SerializeRun | src/app/components/Editor.tsx:112-119 | A run token has length `n / 26 + 1`: all but its last character are `z`, and `n == 26 * zs + (last - 96)`. The last character is in `a`..`y` when `26` does not divide `n`, and is the backtick when it does. |
| Runs.ParseSerializeRun | src/app/components/Editor.tsx:112-119 | Every run token reads back as its run, whatever follows it. |
| Runs.SerializeParseRun | src/app/components/Editor.tsx:112-119 | Whatever reads as a run token is exactly the token of the run it reads as. |
| Runs.SerializeRunInjective | src/app/components/Editor.tsx:112-119 | Distinct runs get distinct tokens. |
| Decimal.FromNat | src/app/components/Editor.tsx:122 | `width + "x"` writes a non-empty digit string with no leading zero that denotes the number (JavaScript does so below 10^21). |
| Scan.Row | src/app/components/Editor.tsx:125-126 | The inner loop visits `width` cells. |
| Scan.RowAt | src/app/components/Editor.tsx:125-126 | The `x`-th cell of row `y` is the lookup of `(x, y)`. |
| Scan.CellsRowMajor | src/app/components/Editor.tsx:124-126 | The scan visits `width * height` cells. Cell `(x, y)` is visited at index `y * width + x` and shows that coordinate's lookup. |
| Scan.ScanAt | src/app/components/Editor.tsx:124-126 | Cell `(x, y)` is the `x`-th cell after the first `y` rows of the scan. |
| Scan.Items | src/app/components/Editor.tsx:127-141 | The tokens stand for the pending run followed by the cells. No run token is empty, and no two run tokens are adjacent. |
| Scan.ItemsBlanks | src/app/components/Editor.tsx:133-135 | Cells that are not opaque only lengthen the pending run. |
| Scan.GridItems | src/app/components/Editor.tsx:124-141 | The identifier's tokens have no empty and no adjacent runs. Their marks are the grid's opaque cells in scan order, and run lengths plus marks add up to `width * height`. |
| Scan.CellsIgnoreOutside | src/app/components/Editor.tsx:124-126 | Surfaces outside the grid never reach the scan. |
| Scan.OpaqueCellCount | src/app/components/Editor.tsx:124-131 | With one surface per coordinate, the scan meets exactly as many opaque cells as there are surfaces inside the grid. |
| GameIds.Token | src/app/components/Editor.tsx:131 | An opaque cell is written as `B` or a digit `0`..`4`, never as a run character. |
| GameIds.GameIdMarks | src/app/components/Editor.tsx:122-131 | The identifier starts with the header. After it, the opaque-cell characters are the grid's labels in row-major order. With one surface per coordinate, there is one per surface inside the grid. |
| GameIds.GameIdIgnoresOutside | src/app/components/Editor.tsx:124-126 | Dropping the surfaces outside the grid does not change the identifier. |
| GameIds.GameIdAgree | src/app/components/Editor.tsx:124-143 | Lists that agree on every cell inside the grid give the same identifier. |
| GameIds.EmitRender | src/app/components/Editor.tsx:124-141 | The text the loop writes cell by cell, with a pending run, equals the token text of the same cells. |
| GameIds.ScanCell | src/app/components/Editor.tsx:126-135 | One step of the scan keeps the text written so far followed by what remains equal to the identifier. |
| GameIds.ScanRow | src/app/components/Editor.tsx:125-136 | The inner loop over one row keeps that invariant from the row's start to the next row's. |
| GameIds.ComputeGameId | src/app/components/Editor.tsx:121-143 | The editor's nested loop, with its run counter and final flush, computes `GameId`. |
| GameIds.ExampleTwoByTwo | src/app/components/Editor.tsx:121-143 | Surfaces `(0,0,"empty")` and `(1,1,3)` on a 2 by 2 grid give `2x2:Bb3`. |
| GameIds.ExampleEmptyRow | src/app/components/Editor.tsx:139-141 | An empty 5 by 1 grid gives `5x1:e`. |
| GameIds.ExampleRunOf26 | src/app/components/Editor.tsx:117 | An empty 26 by 1 grid gives `26x1:z` followed by a backtick. |
| GameIds.ExampleThirteenByTwo | src/app/components/Editor.tsx:117-141 | An empty 13 by 2 grid gives `13x2:z` followed by a backtick: the run is not flushed at the row break, so both rows form one run of 26. |
| Decoder.ReadRender | src/app/components/Editor.tsx:127-141 | Every token sequence reads back from the text the editor writes for it. |
| Decoder.RenderRead | src/app/components/Editor.tsx:127-141 | A text that reads as tokens is exactly what the editor writes for those tokens. |
| Decoder.ParseFieldOf | src/app/components/Editor.tsx:122 | A positive decimal number followed by its separator reads back as that number and its digit count. |
| Decoder.ParseHeaderOf | src/app/components/Editor.tsx:122 | The header reads back as the width and height, whatever follows it. |
| Decoder.DecodeGameId | src/app/components/Editor.tsx:121-143 | Round trip: the identifier of any grid of at least one cell decodes to its dimensions and row-major cells. |
| Decoder.DecodedTokens | src/app/components/Editor.tsx:124-141 | The tokens decoded from an identifier have no empty and no adjacent runs, and run lengths plus marks equal `width * height`. |
| Decoder.ParseHeaderZero | src/app/components/Editor.tsx:122 | A header with a zero width or height, such as `0x4:`, is refused whatever follows it. |
| Decoder.DecodeZeroDimension | src/app/components/Editor.tsx:121-143 | The header-only identifier the editor writes for a grid with zero width or height is refused. |
| Decoder.GameIdInjective | src/app/components/Editor.tsx:121-143 | Two grids with the same identifier have the same dimensions and the same label at every coordinate inside the grid. |
| Viewer.ReadCellsAlphabet | src/app/components/Editor.tsx:208 | Reading a body with the Light Up alphabet succeeds only when every character is a letter or an opaque-cell character. |
| Viewer.GameIdRefused | src/app/components/Editor.tsx:117 | The Light Up format refuses the editor's identifier exactly when some flushed run is a multiple of 26 long. |
| Viewer.ExampleRunOf26Refused | src/app/components/Editor.tsx:117 | An empty 26 by 1 grid's identifier is refused at position 6, the backtick. |
| Viewer.ExampleThirteenByTwoRefused | src/app/components/Editor.tsx:117-141 | An empty 13 by 2 grid's identifier, `13x2:z` plus a backtick, is refused at position 6, the backtick. |
| Viewer.LetterRunMatches | src/app/components/Editor.tsx:112-119 | The corrected run token is made of letters only. It equals `serializeRun` when 26 does not divide the run. Otherwise it is `serializeRun` without its trailing backtick. |
| Viewer.ReadLetterRun | src/app/components/Editor.tsx:112-119 | Every corrected run token reads back under the Light Up alphabet as exactly its run, whatever follows it. |
| Viewer.DecodeCorrectedGameId | src/app/components/Editor.tsx:121-143 | Round trip for the corrected identifier under the Light Up alphabet, for every grid of at least one cell. |
| Viewer.CorrectedGameIdAgrees | src/app/components/Editor.tsx:121-143 | The corrected identifier equals the editor's exactly when no flushed run is a multiple of 26 long. |
| Viewer.ExampleCorrectedRunOf26 | src/app/components/Editor.tsx:117 | The corrected identifier of an empty 26 by 1 grid is `26x1:z`. |

## Left out

- React state, memoisation and re-rendering are left out. The edits are pure
  functions from the old list to the new one.
- Focus tracking and the outside-click listener are left out: they are UI
  state. The relabelling takes the focused coordinate as a parameter, and
  the case with no focus (a no-op) is not modelled.
- Key parsing with `parseInt(e.key)` is left out, as is the choice between
  digits and Backspace. `SetLabel` takes the label directly, and other keys
  change nothing.
- Width and height come from `parseInt` on text inputs, which can yield
  `NaN` or negative numbers. They are modelled as natural numbers.
- Decimal.FromNat: always writes plain decimal digits. JavaScript writes a
  number of 10^21 or more in exponent notation (`1e+21`), which a width or
  height typed with 22 digits reaches. The model's header differs there.
- Rendering of the grid buttons, the colours and the link element is left
  out. Only the identifier placed in the link is modelled.
- The decoders are not in the source. They serve as the encoder's partner
  and as the Light Up format's reading of the identifier. Header numbers
  with leading zeros are accepted.
- Both decoders refuse a zero width or height. The editor accepts `0` from
  its inputs and then writes a header-only identifier, `0x<h>:` or
  `<w>x0:`. The round trips cover grids of at least one cell only.
- JavaScript numbers are doubles. The scan's run counter and indices are
  modelled as unbounded integers, which they equal for any grid a browser
  can render.

## Findings

| source | as written | input that shows it | evidently intended | confidence | as-written member | corrected member |
|---|---|---|---|---|---|---|
| src/app/components/Editor.tsx:117 | A run of `n` cells always ends with the character of code `96 + n % 26`, which is the backtick when 26 divides `n`. | An empty 26 by 1 grid: the editor writes `26x1:z` plus a backtick, and `Viewer.Decode`, the Light Up alphabet, refuses it at position 6. An empty 13 by 2 grid gives `13x2:z` plus a backtick, refused at the same position. | Write only the `z`s when 26 divides the run, since each letter stands for up to 26 cells on its own. | medium (only the Light Up alphabet is modelled, not the player's reader); not executed | Viewer.GameIdRefused | Viewer.DecodeCorrectedGameId |

`GameIds.GameId` and `GameIds.ComputeGameId` keep the code as written,
backtick included, and `Decoder` reads that text back exactly. The corrected
encoder is `Viewer.CorrectedGameId`, built on `Viewer.LetterRun`.
`Viewer.CorrectedGameIdAgrees` shows it differs from the editor's only on
grids with such a run.

=== FILE: decimal.dfy ===
/**
  Decimal notation of non-negative integers, as JavaScript writes a whole
  number below 10^21 when it is concatenated to a string, and its inverse.
  From 10^21 on JavaScript switches to exponent notation, which is not modelled.
 */
module Decimal {

  predicate IsDigit(c: char) {
    '0' <= c <= '9'
  }

  predicate AllDigits(s: string) {
    forall i :: 0 <= i < |s| ==> IsDigit(s[i])
  }

  function DigitChar(d: nat): (c: char)
    requires d < 10
    ensures IsDigit(c) && c as int - '0' as int == d
  {
    ('0' as int + d) as char
  }

  /** The number a string of digits denotes, read most significant digit first. */
  function Value(s: string): nat
    requires AllDigits(s)
    decreases |s|
  {
    if |s| == 0 then 0 else 10 * Value(s[..|s| - 1]) + (s[|s| - 1] as int - '0' as int)
  }

  /** The shortest decimal notation of `n`: digits only, no leading zero, denoting `n`. */
  function FromNat(n: nat): (r: string)
    ensures |r| >= 1 && AllDigits(r)
    ensures |r| > 1 ==> r[0] != '0'
    ensures Value(r) == n
    decreases n
  {
    if n < 10 then [DigitChar(n)]
    else
      var prefix := FromNat(n / 10);
      var r := prefix + [DigitChar(n % 10)];
      assert r[..|r| - 1] == prefix;
      r
  }

  /** The longest prefix of `s` made of digits. */
  function DigitPrefix(s: string): (r: nat)
    ensures r <= |s| && AllDigits(s[..r])
    ensures r < |s| ==> !IsDigit(s[r])
    decreases |s|
  {
    if |s| == 0 || !IsDigit(s[0]) then 0
    else
      var k := DigitPrefix(s[1..]);
      assert s[..k + 1] == [s[0]] + s[1..][..k];
      k + 1
  }

  /** A digit string followed by a non-digit splits exactly at that non-digit. */
  lemma {:induction false} DigitPrefixOf(d: string, rest: string)
    requires AllDigits(d)
    requires |rest| > 0 && !IsDigit(rest[0])
    ensures DigitPrefix(d + rest) == |d|
    decreases |d|
  {
    if |d| == 0 {
      assert d + rest == rest;
    } else {
      assert (d + rest)[1..] == d[1..] + rest;
      DigitPrefixOf(d[1..], rest);
    }
  }
}

=== FILE: decoder.dfy ===
/**
  Reading an identifier back: the header `<width>x<height>:` and the token
  sequence of the body. The token reader accepts exactly the run tokens the
  editor writes, including the backtick that ends a run whose length is a
  multiple of 26, so it inverts the editor's encoder on every grid of at
  least one cell. A grid with a zero width or height is refused.
 */
module Decoder {
  import opened Wrappers
  import opened Surfaces
  import opened Runs
  import opened Scan
  import opened GameIds
  import Decimal

  /** The single error kind, with the position in the identifier it was found at. */
  datatype DecodeError = MalformedIdentifier(position: nat)

  /** A decoded grid: its dimensions and its cells in row-major order. */
  datatype Layout = Layout(width: nat, height: nat, cells: seq<Cell>)

  /** The label an opaque-cell character stands for. */
  function MarkLabel(c: char): (r: Option<Label>)
    ensures r.Some? <==> IsMarkChar(c)
    ensures r.Some? ==> Token(r.value) == c
  {
    if c == 'B' then Some(Empty)
    else if '0' <= c <= '4' then Some(Number(c as int - '0' as int))
    else None
  }

  lemma MarkLabelToken(l: Label)
    ensures MarkLabel(Token(l)) == Some(l)
  {
  }

  /** `item` in front of a successful reading; a failure is passed on. */
  function Cons(item: Item, r: Result<seq<Item>, DecodeError>): Result<seq<Item>, DecodeError> {
    match r
    case Success(items) => Success([item] + items)
    case Failure(e) => Failure(e)
  }

  /**
    Splits a body into tokens; `at` is the position of `t` in the whole
    identifier, used to report where a character fits no token.
   */
  function ReadTokens(t: string, at: nat): Result<seq<Item>, DecodeError>
    decreases |t|
  {
    if |t| == 0 then Success([])
    else
      match MarkLabel(t[0])
      case Some(l) => Cons(Mark(l), ReadTokens(t[1..], at + 1))
      case None =>
        match ParseRun(t)
        case None => Failure(MalformedIdentifier(at))
        case Some((n, k)) => Cons(Run(n), ReadTokens(t[k..], at + k))
  }

  /** An opaque cell's character in front of a text reads as that cell's token. */
  lemma ReadTokensMark(l: Label, rest: string, at: nat)
    ensures ReadTokens([Token(l)] + rest, at) == Cons(Mark(l), ReadTokens(rest, at + 1))
  {
    MarkLabelToken(l);
    assert ([Token(l)] + rest)[1..] == rest;
  }

  /** A run token in front of a text reads as that run. */
  lemma ReadTokensRun(n: nat, rest: string, at: nat)
    ensures ReadTokens(SerializeRun(n) + rest, at) == Cons(Run(n), ReadTokens(rest, at + |SerializeRun(n)|))
  {
    var t := SerializeRun(n) + rest;
    ParseSerializeRun(n, rest);
    assert t[0] == SerializeRun(n)[0];
    assert !IsMarkChar(t[0]);
    assert t[|SerializeRun(n)|..] == rest;
  }

  /** Any token's text in front of a text reads as that token. */
  lemma ReadPiece(item: Item, rest: string, at: nat)
    ensures ReadTokens(Piece(item) + rest, at) == Cons(item, ReadTokens(rest, at + |Piece(item)|))
  {
    match item
    case Mark(l) => ReadTokensMark(l, rest, at);
    case Run(n) => ReadTokensRun(n, rest, at);
  }

  /** Every token sequence reads back from its text. */
  lemma {:induction false} ReadRender(items: seq<Item>, at: nat)
    ensures ReadTokens(Render(items), at) == Success(items)
    decreases |items|
  {
    if |items| > 0 {
      var p, rest := Piece(items[0]), Render(items[1..]);
      assert Render(items) == p + rest;
      ReadRender(items[1..], at + |p|);
      ReadPiece(items[0], rest, at);
      assert [items[0]] + items[1..] == items;
    }
  }

  /** A successful reading starts with a token whose text is the front of the input. */
  lemma ReadTokensFirst(t: string, at: nat)
    requires |t| > 0 && ReadTokens(t, at).Success?
    ensures var items := ReadTokens(t, at).value;
      var k := |Piece(items[0])|;
      |items| > 0 && k <= |t| && t[..k] == Piece(items[0])
      && ReadTokens(t[k..], at + k) == Success(items[1..])
  {
    if MarkLabel(t[0]).Some? {
      assert t[..1] == [t[0]];
    } else {
      SerializeParseRun(t);
    }
  }

  /** A text that reads as tokens is exactly those tokens written out. */
  lemma {:induction false} RenderRead(t: string, at: nat)
    requires ReadTokens(t, at).Success?
    ensures Render(ReadTokens(t, at).value) == t
    decreases |t|
  {
    if |t| > 0 {
      var items := ReadTokens(t, at).value;
      ReadTokensFirst(t, at);
      var k := |Piece(items[0])|;
      RenderRead(t[k..], at + k);
      assert Render(items) == Piece(items[0]) + Render(items[1..]);
      assert t == t[..k] + t[k..];
    }
  }

  /**
    Reads a positive number written in decimal and ended by `sep` at the
    front of `t`, which starts at position `at` of the identifier. Returns the
    number and the count of its digits.
   */
  function ParseField(t: string, sep: char, at: nat): (r: Result<(nat, nat), DecodeError>)
    ensures r.Success? ==> r.value.0 >= 1 && 1 <= r.value.1 < |t| && t[r.value.1] == sep
    ensures r.Success? ==> Decimal.AllDigits(t[..r.value.1]) && Decimal.Value(t[..r.value.1]) == r.value.0
  {
    var i := Decimal.DigitPrefix(t);
    if i == 0 || i == |t| || t[i] != sep then Failure(MalformedIdentifier(at + i))
    else
      var v := Decimal.Value(t[..i]);
      if v == 0 then Failure(MalformedIdentifier(at))
      else Success((v, i))
  }

  /** A positive digit string followed by the separator reads back as its value. */
  lemma ParseFieldOf(d: string, sep: char, rest: string, at: nat)
    requires |d| > 0 && Decimal.AllDigits(d) && Decimal.Value(d) >= 1
    requires !Decimal.IsDigit(sep)
    ensures ParseField(d + [sep] + rest, sep, at) == Success((Decimal.Value(d), |d|))
  {
    var t := d + [sep] + rest;
    assert t == d + ([sep] + rest);
    Decimal.DigitPrefixOf(d, [sep] + rest);
    assert t[..|d|] == d;
  }

  /**
    Reads `<width>x<height>:` at the front of `id`: both numbers non-empty
    digit strings denoting positive values. Returns the width, the height and
    where the body starts.
   */
  function ParseHeader(id: string): (r: Result<(nat, nat, nat), DecodeError>)
    ensures r.Success? ==> r.value.0 >= 1 && r.value.1 >= 1
    ensures r.Success? ==> 4 <= r.value.2 <= |id| && id[r.value.2 - 1] == ':'
  {
    match ParseField(id, 'x', 0)
    case Failure(e) => Failure(e)
    case Success((w, i)) =>
      match ParseField(id[i + 1..], ':', i + 1)
      case Failure(e) => Failure(e)
      case Success((h, j)) => Success((w, h, i + j + 2))
  }

  /** The header is read as its two fields, each read where the one before it stops. */
  lemma ParseHeaderFields(id: string, w: nat, i: nat, h: nat, j: nat)
    requires ParseField(id, 'x', 0) == Success((w, i))
    requires ParseField(id[i + 1..], ':', i + 1) == Success((h, j))
    ensures ParseHeader(id) == Success((w, h, i + j + 2))
  {
  }

  /** The header's text regrouped the way the field reader consumes it. */
  lemma HeaderShape(w: nat, h: nat, body: string)
    ensures var dw, dh := Decimal.FromNat(w), Decimal.FromNat(h);
      Header(w, h) + body == dw + ['x'] + (dh + [':'] + body)
      && |Header(w, h)| == |dw| + |dh| + 2
  {
    var dw, dh := Decimal.FromNat(w), Decimal.FromNat(h);
    var a := dw + "x" + dh;
    assert a == dw + ['x'] + dh;
    assert a + ":" + body == a + ([':'] + body);
    assert dw + ['x'] + dh + ([':'] + body) == dw + ['x'] + (dh + [':'] + body);
  }

  /** Two positive numbers in decimal, separated by 'x' and ended by ':', read back as a header. */
  lemma ParseHeaderParts(dw: string, dh: string, body: string)
    requires |dw| > 0 && Decimal.AllDigits(dw) && Decimal.Value(dw) >= 1
    requires |dh| > 0 && Decimal.AllDigits(dh) && Decimal.Value(dh) >= 1
    ensures ParseHeader(dw + ['x'] + (dh + [':'] + body))
         == Success((Decimal.Value(dw), Decimal.Value(dh), |dw| + |dh| + 2))
  {
    var rest := dh + [':'] + body;
    var id := dw + ['x'] + rest;
    ParseFieldOf(dw, 'x', rest, 0);
    assert id[|dw| + 1..] == rest;
    ParseFieldOf(dh, ':', body, |dw| + 1);
    ParseHeaderFields(id, Decimal.Value(dw), |dw|, Decimal.Value(dh), |dh|);
  }

  /** The editor's header reads back as its dimensions, whatever body follows. */
  lemma ParseHeaderOf(w: nat, h: nat, body: string)
    requires w >= 1 && h >= 1
    ensures ParseHeader(Header(w, h) + body) == Success((w, h, |Header(w, h)|))
  {
    HeaderShape(w, h, body);
    ParseHeaderParts(Decimal.FromNat(w), Decimal.FromNat(h), body);
  }

  /** A field whose digits denote 0, or that has no digits, is refused. */
  lemma ParseFieldZero(d: string, sep: char, rest: string, at: nat)
    requires Decimal.AllDigits(d) && Decimal.Value(d) == 0
    requires !Decimal.IsDigit(sep)
    ensures ParseField(d + [sep] + rest, sep, at).Failure?
  {
    var t := d + [sep] + rest;
    assert t == d + ([sep] + rest);
    Decimal.DigitPrefixOf(d, [sep] + rest);
    assert t[..|d|] == d;
  }

  /** A header with a zero width or height is refused, whatever body follows. */
  lemma ParseHeaderZero(w: nat, h: nat, body: string)
    requires w == 0 || h == 0
    ensures ParseHeader(Header(w, h) + body).Failure?
  {
    var dw, dh := Decimal.FromNat(w), Decimal.FromNat(h);
    var rest := dh + [':'] + body;
    var id := dw + ['x'] + rest;
    HeaderShape(w, h, body);
    if w == 0 {
      ParseFieldZero(dw, 'x', rest, 0);
    } else {
      ParseFieldOf(dw, 'x', rest, 0);
      assert id[|dw| + 1..] == rest;
      ParseFieldZero(dh, ':', body, |dw| + 1);
    }
  }

  /**
    Decodes an identifier: the header, then the body's tokens, which must
    stand for exactly `width * height` cells.
   */
  function Decode(id: string): (r: Result<Layout, DecodeError>)
    ensures r.Success? ==> r.value.width >= 1 && r.value.height >= 1
    ensures r.Success? ==> |r.value.cells| == r.value.width * r.value.height
  {
    match ParseHeader(id)
    case Failure(e) => Failure(e)
    case Success((w, h, start)) =>
      match ReadTokens(id[start..], start)
      case Failure(e) => Failure(e)
      case Success(items) =>
        var cells := Expand(items);
        if |cells| != w * h then Failure(MalformedIdentifier(|id|))
        else Success(Layout(w, h, cells))
  }

  /**
    Round trip: the identifier of any grid of at least one cell decodes to
    the grid's dimensions and its cells in row-major order.
   */
  lemma DecodeGameId(w: nat, h: nat, ss: seq<Surface>)
    requires w >= 1 && h >= 1
    ensures Decode(GameId(w, h, ss)) == Success(Layout(w, h, Cells(ss, w, h)))
  {
    var id := GameId(w, h, ss);
    ParseHeaderOf(w, h, Body(w, h, ss));
    assert id[|Header(w, h)|..] == Body(w, h, ss);
    ReadRender(Items(Cells(ss, w, h), 0), |Header(w, h)|);
    assert Blanks(0) + Cells(ss, w, h) == Cells(ss, w, h);
    CellsLength(ss, w, h);
  }

  /**
    The editor writes a header-only identifier such as `0x4:` for a grid with
    no cells; the decoder refuses it.
   */
  lemma DecodeZeroDimension(w: nat, h: nat, ss: seq<Surface>)
    requires w == 0 || h == 0
    ensures Decode(GameId(w, h, ss)).Failure?
  {
    ParseHeaderZero(w, h, Body(w, h, ss));
  }

  /**
    The tokens read back from an identifier: runs are never empty, never
    adjacent, and run lengths plus opaque cells add up to `width * height`.
   */
  lemma DecodedTokens(w: nat, h: nat, ss: seq<Surface>)
    ensures var r := ReadTokens(Body(w, h, ss), |Header(w, h)|);
      r.Success? && RunsPositive(r.value) && NoAdjacentRuns(r.value) && Weight(r.value) == w * h
  {
    ReadRender(Items(Cells(ss, w, h), 0), |Header(w, h)|);
    GridItems(ss, w, h);
  }

  /**
    Two grids of at least one cell with the same identifier have the same
    dimensions and the same label at every coordinate inside the grid.
   */
  lemma GameIdInjective(w1: nat, h1: nat, s1: seq<Surface>, w2: nat, h2: nat, s2: seq<Surface>)
    requires w1 >= 1 && h1 >= 1 && w2 >= 1 && h2 >= 1
    requires GameId(w1, h1, s1) == GameId(w2, h2, s2)
    ensures w1 == w2 && h1 == h2
    ensures forall x, y :: 0 <= x < w1 && 0 <= y < h1 ==> LabelAt(s1, x, y) == LabelAt(s2, x, y)
  {
    DecodeGameId(w1, h1, s1);
    DecodeGameId(w2, h2, s2);
    CellsRowMajor(s1, w1, h1);
    CellsRowMajor(s2, w2, h2);
  }
}

=== FILE: game_id.dfy ===
/**
  The game identifier of a Light Up grid: the header `<width>x<height>:`
  followed by the row-major scan of the grid, where each opaque cell is one
  character ('B' without a clue, else the clue digit) and each maximal run of
  other cells is one run token.
 */
module GameIds {
  import opened Wrappers
  import opened Surfaces
  import opened Runs
  import opened Scan
  import Decimal

  /** Characters that stand for one opaque cell. */
  predicate IsMarkChar(c: char) {
    c == 'B' || '0' <= c <= '4'
  }

  /** The character written for an opaque cell. */
  function Token(l: Label): (c: char)
    ensures IsMarkChar(c) && !IsRunChar(c)
  {
    match l
    case Empty => 'B'
    case Number(n) => Decimal.DigitChar(n)
  }

  /** The text of one token. */
  function Piece(item: Item): string {
    match item
    case Run(n) => SerializeRun(n)
    case Mark(l) => [Token(l)]
  }

  /** The text of a token sequence. */
  function Render(items: seq<Item>): string
    decreases |items|
  {
    if |items| == 0 then [] else Piece(items[0]) + Render(items[1..])
  }

  lemma {:induction false} RenderAppend(a: seq<Item>, b: seq<Item>)
    ensures Render(a + b) == Render(a) + Render(b)
    decreases |a|
  {
    if |a| == 0 {
      assert a + b == b;
    } else {
      assert (a + b)[1..] == a[1..] + b;
      RenderAppend(a[1..], b);
    }
  }

  /** A flushed run is written as its run token, and an empty one not at all. */
  lemma RenderFlushed(run: nat)
    ensures Render(Flushed(run)) == if run > 0 then SerializeRun(run) else []
  {
    if run > 0 {
      assert Flushed(run)[1..] == [];
    }
  }

  /** `<width>x<height>:` with both numbers in decimal. */
  function Header(w: nat, h: nat): string {
    Decimal.FromNat(w) + "x" + Decimal.FromNat(h) + ":"
  }

  /** The scan part of the identifier. */
  function Body(w: nat, h: nat, ss: seq<Surface>): string {
    Render(Items(Cells(ss, w, h), 0))
  }

  /** The identifier the editor links to for a `w` by `h` grid with surfaces `ss`. */
  function GameId(w: nat, h: nat, ss: seq<Surface>): string {
    Header(w, h) + Body(w, h, ss)
  }

  // ---------------------------------------------------------------------------
  // Properties of the identifier
  // ---------------------------------------------------------------------------

  /** The characters of `t` that stand for opaque cells, in order. */
  function MarkChars(t: string): string
    decreases |t|
  {
    if |t| == 0 then []
    else if IsMarkChar(t[0]) then [t[0]] + MarkChars(t[1..])
    else MarkChars(t[1..])
  }

  lemma {:induction false} MarkCharsAppend(a: string, b: string)
    ensures MarkChars(a + b) == MarkChars(a) + MarkChars(b)
    decreases |a|
  {
    if |a| == 0 {
      assert a + b == b;
    } else {
      assert (a + b)[1..] == a[1..] + b;
      MarkCharsAppend(a[1..], b);
    }
  }

  /** A text of run characters only has no mark characters. */
  lemma {:induction false} MarkCharsOfRunText(t: string)
    requires forall i :: 0 <= i < |t| ==> IsRunChar(t[i])
    ensures MarkChars(t) == []
    decreases |t|
  {
    if |t| > 0 {
      MarkCharsOfRunText(t[1..]);
    }
  }

  /** The characters written for a sequence of labels. */
  function TokensOf(ls: seq<Label>): (r: string)
    ensures |r| == |ls| && forall i :: 0 <= i < |ls| ==> r[i] == Token(ls[i])
  {
    seq(|ls|, i requires 0 <= i < |ls| => Token(ls[i]))
  }

  /** The mark characters of a rendered token sequence are its marks, written in order. */
  lemma {:induction false} MarkCharsRender(items: seq<Item>)
    ensures MarkChars(Render(items)) == TokensOf(Marks(items))
    decreases |items|
  {
    if |items| > 0 {
      MarkCharsRender(items[1..]);
      MarkCharsAppend(Piece(items[0]), Render(items[1..]));
      match items[0]
      case Run(n) =>
        MarkCharsOfRunText(SerializeRun(n));
      case Mark(l) =>
        assert MarkChars([Token(l)]) == [Token(l)];
        assert TokensOf(Marks(items)) == [Token(l)] + TokensOf(Marks(items[1..]));
    }
  }

  /**
    After the header, the identifier writes one character per opaque cell of
    the grid, in row-major order; with at most one surface per coordinate that
    is one character per surface inside the grid.
   */
  lemma GameIdMarks(w: nat, h: nat, ss: seq<Surface>)
    ensures GameId(w, h, ss)[..|Header(w, h)|] == Header(w, h)
    ensures MarkChars(GameId(w, h, ss)[|Header(w, h)|..]) == TokensOf(Labels(Cells(ss, w, h)))
    ensures Distinct(ss) ==> |MarkChars(GameId(w, h, ss)[|Header(w, h)|..])| == |InBounds(ss, w, h)|
  {
    var items := Items(Cells(ss, w, h), 0);
    assert GameId(w, h, ss)[|Header(w, h)|..] == Body(w, h, ss);
    MarkCharsRender(items);
    GridItems(ss, w, h);
    if Distinct(ss) {
      OpaqueCellCount(ss, w, h);
    }
  }

  /**
    The identifier depends only on the cells inside the grid: surfaces left
    outside after the grid shrinks are never written.
   */
  lemma GameIdIgnoresOutside(w: nat, h: nat, ss: seq<Surface>)
    ensures GameId(w, h, InBounds(ss, w, h)) == GameId(w, h, ss)
  {
    CellsIgnoreOutside(ss, w, h);
  }

  /** Two surface lists that agree inside a `w` by `h` grid give the same identifier. */
  lemma GameIdAgree(w: nat, h: nat, s1: seq<Surface>, s2: seq<Surface>)
    requires forall x, y :: 0 <= x < w && 0 <= y < h ==> LabelAt(s1, x, y) == LabelAt(s2, x, y)
    ensures GameId(w, h, s1) == GameId(w, h, s2)
  {
    CellsAgree(s1, s2, w, h);
  }

  /** The scan of the 2 by 2 example grid, cell by cell. */
  lemma TwoByTwoCells()
    ensures Cells([Surface(0, 0, Empty), Surface(1, 1, Number(3))], 2, 2)
         == [Some(Empty), None, None, Some(Number(3))]
  {
    var ss := [Surface(0, 0, Empty), Surface(1, 1, Number(3))];
    assert ss[1..] == [Surface(1, 1, Number(3))];
    assert ss[1..][1..] == [];
    assert LabelAt(ss, 0, 0) == Some(Empty);
    assert LabelAt(ss, 1, 0) == None;
    assert LabelAt(ss, 0, 1) == None;
    assert LabelAt(ss, 1, 1) == Some(Number(3));
    var cells := [Some(Empty), None, None, Some(Number(3))];
    assert Row(ss, 2, 0) == cells[..2];
    assert Row(ss, 2, 1) == cells[2..];
  }

  /** The tokens of the 2 by 2 example: the two cells between the opaque ones form one run. */
  lemma TwoByTwoItems()
    ensures Items([Some(Empty), None, None, Some(Number(3))], 0) == [Mark(Empty), Run(2), Mark(Number(3))]
  {
    var cells := [Some(Empty), None, None, Some(Number(3))];
    assert cells[1..] == [None, None, Some(Number(3))];
    assert cells[1..][1..] == [None, Some(Number(3))];
    assert cells[1..][1..][1..] == [Some(Number(3))];
    assert cells[1..][1..][1..][1..] == [];
  }

  /**
    A 2 by 2 grid, opaque at the top left and with clue 3 at the bottom right:
    the two cells between them in scan order form a run of 2.
   */
  lemma ExampleTwoByTwo()
    ensures GameId(2, 2, [Surface(0, 0, Empty), Surface(1, 1, Number(3))]) == "2x2:Bb3"
  {
    TwoByTwoBody();
    Header2By2();
  }

  lemma TwoByTwoBody()
    ensures Body(2, 2, [Surface(0, 0, Empty), Surface(1, 1, Number(3))]) == "Bb3"
  {
    TwoByTwoCells();
    TwoByTwoItems();
    TwoByTwoText();
  }

  lemma Header2By2()
    ensures Header(2, 2) == "2x2:"
  {
    assert Decimal.FromNat(2) == "2";
  }

  /** The text of the 2 by 2 example's tokens. */
  lemma TwoByTwoText()
    ensures Render([Mark(Empty), Run(2), Mark(Number(3))]) == "Bb3"
  {
    var items := [Mark(Empty), Run(2), Mark(Number(3))];
    assert items[1..] == [Run(2), Mark(Number(3))];
    assert items[1..][1..] == [Mark(Number(3))];
    assert items[1..][1..][1..] == [];
    assert SerializeRun(2) == "b";
  }

  /** A grid of one row and no surfaces is written as a single run token after the header. */
  lemma EmptyRowBody(w: nat)
    requires w > 0
    ensures Body(w, 1, []) == SerializeRun(w)
  {
    RowWithoutSurfaces(w, 0);
    assert Cells([], w, 1) == Blanks(w);
    ItemsBlanks(w, 0);
    RenderFlushed(w);
  }

  /** A 5 by 1 grid with no opaque cell is one run of 5. */
  lemma ExampleEmptyRow()
    ensures GameId(5, 1, []) == "5x1:e"
  {
    EmptyRowBody(5);
    assert SerializeRun(5) == "e";
    assert Header(5, 1) == "5x1:";
  }

  lemma RunOf26Token()
    ensures SerializeRun(26) == "z`"
  {
    assert 26 / 26 == 1;
    assert seq(1, _ => 'z') == "z";
  }

  lemma Header26By1()
    ensures Header(26, 1) == "26x1:"
  {
    assert 26 / 10 == 2 && 26 % 10 == 6;
    assert Decimal.FromNat(26) == "26";
  }

  /** A grid without surfaces is one run of `w * h`. */
  lemma EmptyGridBody(w: nat, h: nat)
    requires w * h > 0
    ensures Body(w, h, []) == SerializeRun(w * h)
  {
    EmptyGrid(w, h);
    ItemsBlanks(w * h, 0);
    RenderFlushed(w * h);
  }

  lemma Header13By2()
    ensures Header(13, 2) == "13x2:"
  {
    assert 13 / 10 == 1 && 13 % 10 == 3;
    assert Decimal.FromNat(13) == "13";
  }

  /** A 13 by 2 grid with no opaque cell: the scan runs on across the row break, one run of 26. */
  lemma ExampleThirteenByTwo()
    ensures GameId(13, 2, []) == "13x2:z`"
  {
    EmptyGridBody(13, 2);
    RunOf26Token();
    Header13By2();
  }

  /** A 26 by 1 grid with no opaque cell: the run of 26 is written with a trailing backtick. */
  lemma ExampleRunOf26()
    ensures GameId(26, 1, []) == "26x1:z`"
  {
    EmptyRowBody(26);
    RunOf26Token();
    Header26By1();
  }

  /** The run token for `run` pending cells, or nothing when none are pending. */
  function FlushText(run: nat): string {
    if run > 0 then SerializeRun(run) else []
  }

  /**
    The text the scan writes for `cells` when `run` cells that are not opaque
    are already pending, cell by cell as the editor's loop goes.
   */
  function Emit(cells: seq<Cell>, run: nat): string
    decreases |cells|
  {
    if |cells| == 0 then FlushText(run)
    else
      match cells[0]
      case Some(l) => FlushText(run) + [Token(l)] + Emit(cells[1..], 0)
      case None => Emit(cells[1..], run + 1)
  }

  /** The loop's cell-by-cell text is the text of the scan's tokens. */
  lemma {:induction false} EmitRender(cells: seq<Cell>, run: nat)
    ensures Emit(cells, run) == Render(Items(cells, run))
    decreases |cells|
  {
    RenderFlushed(run);
    if |cells| > 0 {
      match cells[0]
      case Some(l) =>
        EmitRender(cells[1..], 0);
        RenderAppend(Flushed(run) + [Mark(l)], Items(cells[1..], 0));
        RenderAppend(Flushed(run), [Mark(l)]);
        assert Render([Mark(l)]) == [Token(l)];
      case None =>
        EmitRender(cells[1..], run + 1);
    }
  }

  /** What is still to be written once `i` cells of the scan are done and `run` of them are pending. */
  function Remaining(cells: seq<Cell>, i: nat, run: nat): string
    requires i <= |cells|
  {
    Emit(cells[i..], run)
  }

  /**
    One scan step over an opaque cell: flushing the pending run and writing
    the cell keeps the text written so far a prefix of the identifier.
   */
  lemma ScanMark(done: string, target: string, cells: seq<Cell>, i: nat, run: nat, l: Label)
    requires i < |cells| && cells[i] == Some(l)
    requires done + Remaining(cells, i, run) == target
    ensures (if run > 0 then done + SerializeRun(run) else done) + [Token(l)] + Remaining(cells, i + 1, 0) == target
  {
    assert cells[i..][1..] == cells[i + 1..];
    assert Remaining(cells, i, run) == FlushText(run) + [Token(l)] + Remaining(cells, i + 1, 0);
  }

  /** One scan step over a cell that is not opaque: the pending run grows by one. */
  lemma ScanBlank(done: string, target: string, cells: seq<Cell>, i: nat, run: nat)
    requires i < |cells| && cells[i] == None
    requires done + Remaining(cells, i, run) == target
    ensures done + Remaining(cells, i + 1, run + 1) == target
  {
    assert cells[i..][1..] == cells[i + 1..];
  }

  /**
    The body of the editor's scan for cell `(x, y)`, the `i`-th cell of the
    scan: an opaque cell flushes the pending run and is written; any other
    cell extends the pending run.
   */
  method ScanCell(ss: seq<Surface>, x: int, y: int, id0: string, run0: nat,
                  ghost cells: seq<Cell>, ghost i: nat, ghost target: string)
    returns (id: string, run: nat)
    requires i < |cells| && cells[i] == LabelAt(ss, x, y)
    requires id0 + Remaining(cells, i, run0) == target
    ensures id + Remaining(cells, i + 1, run) == target
  {
    id, run := id0, run0;
    var surface := Find(ss, x, y);
    if surface.Some? {
      ScanMark(id, target, cells, i, run, surface.value.mark);
      if run > 0 {
        id := id + SerializeRun(run);
      }
      id := id + [Token(surface.value.mark)];
      run := 0;
    } else {
      ScanBlank(id, target, cells, i, run);
      run := run + 1;
    }
  }

  /**
    The inner loop of the editor's scan: row `y`, left to right. `target` is
    the identifier being written.
   */
  method ScanRow(w: nat, h: nat, ss: seq<Surface>, y: nat, id0: string, run0: nat, ghost target: string)
    returns (id: string, run: nat)
    requires y < h
    requires |Cells(ss, w, y)| <= |Cells(ss, w, h)|
    requires id0 + Remaining(Cells(ss, w, h), |Cells(ss, w, y)|, run0) == target
    ensures |Cells(ss, w, y + 1)| <= |Cells(ss, w, h)|
    ensures id + Remaining(Cells(ss, w, h), |Cells(ss, w, y + 1)|, run) == target
  {
    ghost var cells := Cells(ss, w, h);
    ghost var i: nat := |Cells(ss, w, y)|;
    id, run := id0, run0;
    var x := 0;
    while x < w
      invariant 0 <= x <= w
      invariant i == |Cells(ss, w, y)| + x <= |cells|
      invariant id + Remaining(cells, i, run) == target
    {
      ScanAt(ss, w, h, x, y);
      id, run := ScanCell(ss, x, y, id, run, cells, i, target);
      x := x + 1;
      i := i + 1;
    }
    CellsPrefix(ss, w, h, y + 1);
    assert |Cells(ss, w, y + 1)| == i;
  }

  /**
    The editor's nested loop: rows outer, columns inner, a run counter of
    cells that are not opaque, flushed before each opaque cell and at the end.
   */
  method ComputeGameId(w: nat, h: nat, ss: seq<Surface>) returns (id: string)
    ensures id == GameId(w, h, ss)
  {
    id := Header(w, h);
    var currentRun: nat := 0;
    ghost var cells := Cells(ss, w, h);
    assert cells[0..] == cells;
    EmitRender(cells, 0);
    var y := 0;
    while y < h
      invariant 0 <= y <= h
      invariant |Cells(ss, w, y)| <= |cells|
      invariant id + Remaining(cells, |Cells(ss, w, y)|, currentRun) == GameId(w, h, ss)
    {
      id, currentRun := ScanRow(w, h, ss, y, id, currentRun, GameId(w, h, ss));
      y := y + 1;
    }
    assert cells[|cells|..] == [];
    if currentRun > 0 {
      id := id + SerializeRun(currentRun);
    }
  }
}

=== FILE: runs.dfy ===
/**
  Run tokens of the game identifier. A run of `n` consecutive cells that are
  not opaque is written as `n / 26` copies of 'z' followed by the character
  whose code is `96 + n % 26`. A remainder of 0 yields the backtick (code 96),
  which the model keeps as the editor writes it.
 */
module Runs {
  import opened Wrappers

  /** Characters that end a run token: the backtick and 'a'..'y'. */
  predicate EndsRun(c: char) {
    '`' <= c <= 'y'
  }

  /** Characters that may appear in a run token. */
  predicate IsRunChar(c: char) {
    EndsRun(c) || c == 'z'
  }

  /** The token for a run of `run` cells that are not opaque. */
  function SerializeRun(run: nat): (r: string)
    ensures |r| == run / 26 + 1
    ensures forall i :: 0 <= i < |r| - 1 ==> r[i] == 'z'
    ensures EndsRun(r[|r| - 1])
    ensures run == 26 * (|r| - 1) + (r[|r| - 1] as int - 96)
    ensures run % 26 != 0 ==> 'a' <= r[|r| - 1] <= 'y'
    ensures run % 26 == 0 ==> r[|r| - 1] == '`'
  {
    var leadingZs := run / 26;
    seq(leadingZs, _ => 'z') + [(96 + run - 26 * leadingZs) as char]
  }

  /** A run token of a longer run is one more 'z' in front of the token of a run 26 shorter. */
  lemma SerializeRunStep(run: nat)
    requires run >= 26
    ensures SerializeRun(run) == ['z'] + SerializeRun(run - 26)
  {
    var a, b := SerializeRun(run), ['z'] + SerializeRun(run - 26);
    assert |a| == |b|;
    forall i | 0 <= i < |a| ensures a[i] == b[i] {
      if i == |a| - 1 {
        assert (run - 26) % 26 == run % 26;
      }
    }
  }

  /**
    Reads one run token at the front of `t`: every 'z' adds 26 and continues,
    any other run character adds its code minus 96 and ends the token.
    Returns the run length and the number of characters read.
   */
  function ParseRun(t: string): (r: Option<(nat, nat)>)
    ensures r.Some? ==> 1 <= r.value.1 <= |t|
    decreases |t|
  {
    if |t| == 0 then None
    else if t[0] == 'z' then
      match ParseRun(t[1..])
      case None => None
      case Some((n, k)) => Some((n + 26, k + 1))
    else if EndsRun(t[0]) then Some((t[0] as int - 96, 1))
    else None
  }

  /** Every run token reads back as its run, whatever follows it. */
  lemma {:induction false} ParseSerializeRun(run: nat, rest: string)
    ensures ParseRun(SerializeRun(run) + rest) == Some((run, |SerializeRun(run)|))
    decreases run
  {
    if run >= 26 {
      SerializeRunStep(run);
      assert SerializeRun(run) + rest == ['z'] + (SerializeRun(run - 26) + rest);
      assert (['z'] + (SerializeRun(run - 26) + rest))[1..] == SerializeRun(run - 26) + rest;
      ParseSerializeRun(run - 26, rest);
    } else {
      assert (SerializeRun(run) + rest)[0] == SerializeRun(run)[0];
    }
  }

  /** Whatever a run token reads as, the characters read are exactly that run's token. */
  lemma {:induction false} SerializeParseRun(t: string)
    requires ParseRun(t).Some?
    ensures ParseRun(t).value.1 <= |t|
    ensures t[..ParseRun(t).value.1] == SerializeRun(ParseRun(t).value.0)
    decreases |t|
  {
    var (n, k) := ParseRun(t).value;
    if t[0] == 'z' {
      SerializeParseRun(t[1..]);
      SerializeRunStep(n);
      assert t[..k] == [t[0]] + t[1..][..k - 1];
    } else {
      assert n / 26 == 0;
      assert SerializeRun(n) == [t[0]];
    }
  }

  /** Distinct runs get distinct tokens. */
  lemma SerializeRunInjective(m: nat, n: nat)
    requires SerializeRun(m) == SerializeRun(n)
    ensures m == n
  {
    ParseSerializeRun(m, []);
    ParseSerializeRun(n, []);
    assert SerializeRun(m) + [] == SerializeRun(m);
    assert SerializeRun(n) + [] == SerializeRun(n);
  }
}

=== FILE: scan.dfy ===
/**
  The row-major scan behind the game identifier: the grid as a sequence of
  cells (`y` outer, `x` inner), and the tokens the scan emits for it — a run
  token for each maximal stretch of cells that are not opaque, and a mark
  token for each opaque cell.
 */
module Scan {
  import opened Wrappers
  import opened Surfaces

  /** One grid position: `None` when it is not opaque, else the opaque cell's label. */
  type Cell = Option<Label>

  /** Row `y` of a grid `w` cells wide, left to right. */
  function Row(ss: seq<Surface>, w: nat, y: int): (r: seq<Cell>)
    ensures |r| == w
    decreases w
  {
    if w == 0 then [] else Row(ss, w - 1, y) + [LabelAt(ss, w - 1, y)]
  }

  lemma {:induction false} RowAt(ss: seq<Surface>, w: nat, y: int, x: int)
    requires 0 <= x < w
    ensures Row(ss, w, y)[x] == LabelAt(ss, x, y)
    decreases w
  {
    if x < w - 1 {
      RowAt(ss, w - 1, y, x);
    }
  }

  /** The cells of a `w` by `h` grid in scan order: rows `0 .. h - 1`, each left to right. */
  function Cells(ss: seq<Surface>, w: nat, h: nat): seq<Cell>
    decreases h
  {
    if h == 0 then [] else Cells(ss, w, h - 1) + Row(ss, w, h - 1)
  }

  lemma MulStep(a: int, b: int)
    ensures (a + 1) * b == a * b + b
  {
  }

  /** The index of cell `(x, y)` in the row-major scan of a `w` by `h` grid. */
  function CellIndex(w: nat, h: nat, x: int, y: int): (i: nat)
    requires 0 <= x < w && 0 <= y < h
    ensures i < w * h
  {
    MulStep(y, w);
    assert (y + 1) * w <= h * w;
    y * w + x
  }

  lemma {:induction false} CellsLength(ss: seq<Surface>, w: nat, h: nat)
    ensures |Cells(ss, w, h)| == w * h
    decreases h
  {
    if h > 0 {
      CellsLength(ss, w, h - 1);
      MulStep(h - 1, w);
    }
  }

  /** Cell `(x, y)` of the scan is the `x`-th cell of row `y`. */
  lemma {:induction false} CellInRow(ss: seq<Surface>, w: nat, h: nat, x: int, y: int)
    requires 0 <= x < w && 0 <= y < h
    ensures CellIndex(w, h, x, y) < |Cells(ss, w, h)|
    ensures Cells(ss, w, h)[CellIndex(w, h, x, y)] == Row(ss, w, y)[x]
    decreases h
  {
    CellsLength(ss, w, h);
    CellsLength(ss, w, h - 1);
    var prev, row := Cells(ss, w, h - 1), Row(ss, w, h - 1);
    var i := CellIndex(w, h, x, y);
    if y < h - 1 {
      CellInRow(ss, w, h - 1, x, y);
      assert i == CellIndex(w, h - 1, x, y);
      assert (prev + row)[i] == prev[i];
    } else {
      MulStep(h - 1, w);
      assert i == |prev| + x;
      assert (prev + row)[i] == row[x];
    }
  }

  lemma CellAt(ss: seq<Surface>, w: nat, h: nat, x: int, y: int)
    requires 0 <= x < w && 0 <= y < h
    ensures CellIndex(w, h, x, y) < |Cells(ss, w, h)|
    ensures Cells(ss, w, h)[CellIndex(w, h, x, y)] == LabelAt(ss, x, y)
  {
    CellInRow(ss, w, h, x, y);
    RowAt(ss, w, y, x);
  }

  /** The scan visits every cell once, in row-major order: cell `(x, y)` is at index `y * w + x`. */
  lemma CellsRowMajor(ss: seq<Surface>, w: nat, h: nat)
    ensures |Cells(ss, w, h)| == w * h
    ensures forall x, y :: 0 <= x < w && 0 <= y < h ==> Cells(ss, w, h)[CellIndex(w, h, x, y)] == LabelAt(ss, x, y)
  {
    CellsLength(ss, w, h);
    forall x, y | 0 <= x < w && 0 <= y < h ensures Cells(ss, w, h)[CellIndex(w, h, x, y)] == LabelAt(ss, x, y) {
      CellAt(ss, w, h, x, y);
    }
  }

  /** The scan of the first `y` rows is a prefix of the scan of the whole grid. */
  lemma {:induction false} CellsPrefix(ss: seq<Surface>, w: nat, h: nat, y: nat)
    requires y <= h
    ensures |Cells(ss, w, y)| <= |Cells(ss, w, h)|
    ensures Cells(ss, w, h)[..|Cells(ss, w, y)|] == Cells(ss, w, y)
    decreases h
  {
    if y < h {
      CellsPrefix(ss, w, h - 1, y);
      var prev := Cells(ss, w, h - 1);
      assert (prev + Row(ss, w, h - 1))[..|prev|] == prev;
    }
  }

  /** Cell `(x, y)` follows the first `y` rows of the scan, `x` cells into row `y`. */
  lemma ScanAt(ss: seq<Surface>, w: nat, h: nat, x: int, y: nat)
    requires 0 <= x < w && y < h
    ensures |Cells(ss, w, y)| + x < |Cells(ss, w, h)|
    ensures Cells(ss, w, h)[|Cells(ss, w, y)| + x] == LabelAt(ss, x, y)
  {
    CellsLength(ss, w, y);
    CellAt(ss, w, h, x, y);
    assert |Cells(ss, w, y)| + x == CellIndex(w, h, x, y);
  }

  /** `n` cells that are not opaque. */
  function Blanks(n: nat): (r: seq<Cell>)
    ensures |r| == n && forall i :: 0 <= i < n ==> r[i] == None
  {
    seq(n, _ => None)
  }

  /** A token of the identifier's body. */
  datatype Item = Run(length: nat) | Mark(m: Label)

  /** The cells a token sequence stands for. */
  function Expand(items: seq<Item>): seq<Cell>
    decreases |items|
  {
    if |items| == 0 then []
    else
      match items[0]
      case Run(n) => Blanks(n) + Expand(items[1..])
      case Mark(l) => [Some(l)] + Expand(items[1..])
  }

  lemma {:induction false} ExpandAppend(a: seq<Item>, b: seq<Item>)
    ensures Expand(a + b) == Expand(a) + Expand(b)
    decreases |a|
  {
    if |a| == 0 {
      assert a + b == b;
    } else {
      assert (a + b)[1..] == a[1..] + b;
      ExpandAppend(a[1..], b);
    }
  }

  /** Every run token stands for at least one cell. */
  predicate RunsPositive(items: seq<Item>) {
    forall i :: 0 <= i < |items| && items[i].Run? ==> items[i].length > 0
  }

  /** No two run tokens follow each other: runs are maximal. */
  predicate NoAdjacentRuns(items: seq<Item>) {
    forall i :: 0 <= i < |items| - 1 && items[i].Run? ==> items[i + 1].Mark?
  }

  /** The run token for `run` pending cells, or nothing when none are pending. */
  function Flushed(run: nat): seq<Item> {
    if run > 0 then [Run(run)] else []
  }

  /**
    The tokens the scan emits for `cells` when `run` cells that are not opaque
    are already pending: a pending run is flushed before each opaque cell and
    once more at the end.
   */
  function Items(cells: seq<Cell>, run: nat): (r: seq<Item>)
    ensures Expand(r) == Blanks(run) + cells
    ensures RunsPositive(r) && NoAdjacentRuns(r)
    decreases |cells|
  {
    if |cells| == 0 then
      assert Blanks(run) + cells == Blanks(run);
      Flushed(run)
    else
      match cells[0]
      case Some(l) =>
        var rest := Items(cells[1..], 0);
        var r := Flushed(run) + [Mark(l)] + rest;
        ExpandAppend(Flushed(run) + [Mark(l)], rest);
        ExpandAppend(Flushed(run), [Mark(l)]);
        assert Expand([Mark(l)]) == [Some(l)];
        assert Expand(Flushed(run)) == Blanks(run);
        assert Blanks(0) + cells[1..] == cells[1..];
        assert cells == [Some(l)] + cells[1..];
        assert NoAdjacentRuns(r) by {
          forall i | 0 <= i < |r| - 1 && r[i].Run? ensures r[i + 1].Mark? {
            var f := |Flushed(run)|;
            if i >= f + 1 {
              assert r[i] == rest[i - f - 1] && r[i + 1] == rest[i - f];
            }
          }
        }
        r
      case None =>
        var r := Items(cells[1..], run + 1);
        assert Blanks(run + 1) + cells[1..] == Blanks(run) + cells;
        r
  }

  /** A stretch of `n` cells that are not opaque only lengthens the pending run. */
  lemma {:induction false} ItemsBlanks(n: nat, run: nat)
    ensures Items(Blanks(n), run) == Flushed(run + n)
    decreases n
  {
    if n > 0 {
      assert Blanks(n)[1..] == Blanks(n - 1);
      ItemsBlanks(n - 1, run + 1);
    }
  }

  /** A row of a grid without surfaces has no opaque cell. */
  lemma {:induction false} RowWithoutSurfaces(w: nat, y: int)
    ensures Row([], w, y) == Blanks(w)
    decreases w
  {
    if w > 0 {
      RowWithoutSurfaces(w - 1, y);
      assert Blanks(w - 1) + [None] == Blanks(w);
    }
  }

  /** A grid without surfaces scans as `w * h` cells, none opaque. */
  lemma {:induction false} EmptyGrid(w: nat, h: nat)
    ensures Cells([], w, h) == Blanks(w * h)
    decreases h
  {
    if h > 0 {
      EmptyGrid(w, h - 1);
      RowWithoutSurfaces(w, h - 1);
      MulStep(h - 1, w);
      assert Blanks((h - 1) * w) + Blanks(w) == Blanks(h * w);
    }
  }

  /** The labels of the opaque cells, in order. */
  function Labels(cells: seq<Cell>): seq<Label>
    decreases |cells|
  {
    if |cells| == 0 then []
    else match cells[0]
      case Some(l) => [l] + Labels(cells[1..])
      case None => Labels(cells[1..])
  }

  /** The labels the mark tokens carry, in order. */
  function Marks(items: seq<Item>): seq<Label>
    decreases |items|
  {
    if |items| == 0 then []
    else match items[0]
      case Mark(l) => [l] + Marks(items[1..])
      case Run(_) => Marks(items[1..])
  }

  lemma {:induction false} LabelsAppend(a: seq<Cell>, b: seq<Cell>)
    ensures Labels(a + b) == Labels(a) + Labels(b)
    decreases |a|
  {
    if |a| == 0 {
      assert a + b == b;
    } else {
      assert (a + b)[1..] == a[1..] + b;
      LabelsAppend(a[1..], b);
    }
  }

  lemma {:induction false} LabelsBlanks(n: nat)
    ensures Labels(Blanks(n)) == []
    decreases n
  {
    if n > 0 {
      assert Blanks(n)[1..] == Blanks(n - 1);
      LabelsBlanks(n - 1);
    }
  }

  /** The mark tokens carry exactly the labels of the cells they expand to. */
  lemma {:induction false} MarksExpand(items: seq<Item>)
    ensures Marks(items) == Labels(Expand(items))
    decreases |items|
  {
    if |items| > 0 {
      MarksExpand(items[1..]);
      match items[0]
      case Run(n) =>
        LabelsAppend(Blanks(n), Expand(items[1..]));
        LabelsBlanks(n);
      case Mark(l) =>
        LabelsAppend([Some(l)], Expand(items[1..]));
    }
  }

  /** The number of cells a token sequence covers: run lengths plus one per mark. */
  function Weight(items: seq<Item>): nat
    decreases |items|
  {
    if |items| == 0 then 0
    else match items[0]
      case Run(n) => n + Weight(items[1..])
      case Mark(_) => 1 + Weight(items[1..])
  }

  lemma {:induction false} WeightExpand(items: seq<Item>)
    ensures Weight(items) == |Expand(items)|
    decreases |items|
  {
    if |items| > 0 {
      WeightExpand(items[1..]);
    }
  }

  /**
    The tokens of a `w` by `h` grid: runs are never empty and never adjacent,
    the marks follow the opaque cells in row-major order, and the run lengths
    plus the marks add up to `w * h`.
   */
  lemma GridItems(ss: seq<Surface>, w: nat, h: nat)
    ensures RunsPositive(Items(Cells(ss, w, h), 0))
    ensures NoAdjacentRuns(Items(Cells(ss, w, h), 0))
    ensures Marks(Items(Cells(ss, w, h), 0)) == Labels(Cells(ss, w, h))
    ensures Weight(Items(Cells(ss, w, h), 0)) == w * h
  {
    var cells := Cells(ss, w, h);
    var items := Items(cells, 0);
    assert Blanks(0) + cells == cells;
    MarksExpand(items);
    WeightExpand(items);
    CellsLength(ss, w, h);
  }

  // ---------------------------------------------------------------------------
  // Surfaces outside the grid, and how many opaque cells the scan sees
  // ---------------------------------------------------------------------------

  predicate Inside(t: Surface, w: nat, h: nat) {
    0 <= t.x < w && 0 <= t.y < h
  }

  /** The surfaces that lie inside a `w` by `h` grid, in list order. */
  function InBounds(ss: seq<Surface>, w: nat, h: nat): (r: seq<Surface>)
    ensures forall t :: t in r <==> t in ss && Inside(t, w, h)
    ensures |r| <= |ss|
    decreases |ss|
  {
    if |ss| == 0 then []
    else if Inside(ss[0], w, h) then [ss[0]] + InBounds(ss[1..], w, h)
    else InBounds(ss[1..], w, h)
  }

  /** Keeping only the surfaces inside the grid changes no cell inside the grid. */
  lemma {:induction false} InBoundsLabelAt(ss: seq<Surface>, w: nat, h: nat, x: int, y: int)
    requires 0 <= x < w && 0 <= y < h
    ensures LabelAt(InBounds(ss, w, h), x, y) == LabelAt(ss, x, y)
    decreases |ss|
  {
    if |ss| > 0 {
      InBoundsLabelAt(ss[1..], w, h, x, y);
      if Inside(ss[0], w, h) {
        var r := [ss[0]] + InBounds(ss[1..], w, h);
        assert r[1..] == InBounds(ss[1..], w, h);
      }
    }
  }

  /** Two surface lists that show the same cells inside the grid scan alike. */
  lemma {:induction false} CellsAgree(s1: seq<Surface>, s2: seq<Surface>, w: nat, h: nat)
    requires forall x, y :: 0 <= x < w && 0 <= y < h ==> LabelAt(s1, x, y) == LabelAt(s2, x, y)
    ensures Cells(s1, w, h) == Cells(s2, w, h)
    decreases h
  {
    if h > 0 {
      CellsAgree(s1, s2, w, h - 1);
      RowsAgree(s1, s2, w, h - 1);
    }
  }

  lemma {:induction false} RowsAgree(s1: seq<Surface>, s2: seq<Surface>, w: nat, y: int)
    requires forall x :: 0 <= x < w ==> LabelAt(s1, x, y) == LabelAt(s2, x, y)
    ensures Row(s1, w, y) == Row(s2, w, y)
    decreases w
  {
    if w > 0 {
      RowsAgree(s1, s2, w - 1, y);
    }
  }

  /** Surfaces outside the grid never reach the scan, however many there are. */
  lemma CellsIgnoreOutside(ss: seq<Surface>, w: nat, h: nat)
    ensures Cells(InBounds(ss, w, h), w, h) == Cells(ss, w, h)
  {
    forall x, y | 0 <= x < w && 0 <= y < h ensures LabelAt(InBounds(ss, w, h), x, y) == LabelAt(ss, x, y) {
      InBoundsLabelAt(ss, w, h, x, y);
    }
    CellsAgree(InBounds(ss, w, h), ss, w, h);
  }

  lemma {:induction false} InBoundsSnoc(ss: seq<Surface>, t: Surface, w: nat, h: nat)
    ensures InBounds(ss + [t], w, h) == InBounds(ss, w, h) + (if Inside(t, w, h) then [t] else [])
    decreases |ss|
  {
    if |ss| == 0 {
      assert ss + [t] == [t];
    } else {
      assert (ss + [t])[1..] == ss[1..] + [t];
      InBoundsSnoc(ss[1..], t, w, h);
    }
  }

  /** Appending a surface at a coordinate not yet opaque adds one opaque cell to a row it lies in. */
  lemma {:induction false} RowCountSnoc(ss: seq<Surface>, t: Surface, w: nat, y: int)
    requires !HasAt(ss, t.x, t.y)
    ensures |Labels(Row(ss + [t], w, y))| == |Labels(Row(ss, w, y))| + (if t.y == y && 0 <= t.x < w then 1 else 0)
    decreases w
  {
    if w > 0 {
      RowCountSnoc(ss, t, w - 1, y);
      var c1, c2 := LabelAt(ss + [t], w - 1, y), LabelAt(ss, w - 1, y);
      LabelsAppend(Row(ss + [t], w - 1, y), [c1]);
      LabelsAppend(Row(ss, w - 1, y), [c2]);
      LabelAtSnoc(ss, t, w - 1, y);
    }
  }

  lemma {:induction false} CellsCountSnoc(ss: seq<Surface>, t: Surface, w: nat, h: nat)
    requires !HasAt(ss, t.x, t.y)
    ensures |Labels(Cells(ss + [t], w, h))| == |Labels(Cells(ss, w, h))| + (if Inside(t, w, h) then 1 else 0)
    decreases h
  {
    if h > 0 {
      CellsCountSnoc(ss, t, w, h - 1);
      RowCountSnoc(ss, t, w, h - 1);
      LabelsAppend(Cells(ss + [t], w, h - 1), Row(ss + [t], w, h - 1));
      LabelsAppend(Cells(ss, w, h - 1), Row(ss, w, h - 1));
    }
  }

  /**
    With at most one surface per coordinate, the scan meets exactly one opaque
    cell per surface inside the grid.
   */
  lemma {:induction false} OpaqueCellCount(ss: seq<Surface>, w: nat, h: nat)
    requires Distinct(ss)
    ensures |Labels(Cells(ss, w, h))| == |InBounds(ss, w, h)|
    decreases |ss|
  {
    if |ss| == 0 {
      OpaqueCellCountEmpty(w, h);
    } else {
      var init, t := ss[..|ss| - 1], ss[|ss| - 1];
      assert ss == init + [t];
      assert Distinct(init);
      assert !HasAt(init, t.x, t.y) by {
        if HasAt(init, t.x, t.y) {
          var i :| 0 <= i < |init| && At(init[i], t.x, t.y);
          assert At(ss[|ss| - 1], ss[i].x, ss[i].y);
          assert false;
        }
      }
      OpaqueCellCount(init, w, h);
      CellsCountSnoc(init, t, w, h);
      InBoundsSnoc(init, t, w, h);
    }
  }

  /** An empty list leaves every cell of the grid not opaque. */
  lemma {:induction false} OpaqueCellCountEmpty(w: nat, h: nat)
    ensures Labels(Cells([], w, h)) == []
    decreases h
  {
    if h > 0 {
      OpaqueCellCountEmpty(w, h - 1);
      EmptyRow(w, h - 1);
      LabelsAppend(Cells([], w, h - 1), Row([], w, h - 1));
    }
  }

  lemma {:induction false} EmptyRow(w: nat, y: int)
    ensures Labels(Row([], w, y)) == []
    decreases w
  {
    if w > 0 {
      EmptyRow(w - 1, y);
      LabelsAppend(Row([], w - 1, y), [LabelAt([], w - 1, y)]);
    }
  }
}

=== FILE: surfaces.dfy ===
/**
  The editor's grid state: a flat list of opaque cells ("surfaces"), each at a
  coordinate and carrying either no clue or a clue number 0..4, and the two
  mutations the editor applies to it — toggling a cell and relabelling it.
  Lookups return the first surface at a coordinate, as a linear search does.
 */
module Surfaces {
  import opened Wrappers

  /** A clue number written on an opaque cell. */
  type Clue = n: int | 0 <= n <= 4

  /** `Empty` is an opaque cell without a clue; `Number(n)` carries clue `n`. */
  datatype Label = Empty | Number(n: Clue)

  /** An opaque cell; `mark` is the source's `label` field. */
  datatype Surface = Surface(x: int, y: int, mark: Label)

  predicate At(s: Surface, x: int, y: int) {
    s.x == x && s.y == y
  }

  /** Some surface of `ss` sits at `(x, y)`. */
  predicate HasAt(ss: seq<Surface>, x: int, y: int) {
    exists i :: 0 <= i < |ss| && At(ss[i], x, y)
  }

  /** The invariant the editor keeps: at most one surface per coordinate. */
  predicate Distinct(ss: seq<Surface>) {
    forall i, j :: 0 <= i < j < |ss| ==> !At(ss[j], ss[i].x, ss[i].y)
  }

  /** `a` is `b` with some elements dropped and the rest kept in order. */
  predicate IsSubsequence<T(==)>(a: seq<T>, b: seq<T>)
    decreases |b|
  {
    if |b| == 0 then |a| == 0
    else (|a| > 0 && a[0] == b[0] && IsSubsequence(a[1..], b[1..])) || IsSubsequence(a, b[1..])
  }

  /** `ss[k]` is the first surface of `ss` at `(x, y)`. */
  predicate FirstAt(ss: seq<Surface>, k: int, x: int, y: int) {
    0 <= k < |ss| && At(ss[k], x, y) && forall j :: 0 <= j < k ==> !At(ss[j], x, y)
  }

  /** The first surface at `(x, y)`, if there is one. */
  function Find(ss: seq<Surface>, x: int, y: int): (r: Option<Surface>)
    ensures r.Some? <==> HasAt(ss, x, y)
    ensures r.Some? ==> At(r.value, x, y) && r.value in ss
    ensures forall k {:trigger FirstAt(ss, k, x, y)} :: FirstAt(ss, k, x, y) ==> r == Some(ss[k])
    ensures r.Some? && Distinct(ss) ==> forall i :: 0 <= i < |ss| && At(ss[i], x, y) ==> ss[i] == r.value
    decreases |ss|
  {
    if |ss| == 0 then None
    else if At(ss[0], x, y) then Some(ss[0])
    else
      var r := Find(ss[1..], x, y);
      assert forall k :: FirstAt(ss, k, x, y) ==> FirstAt(ss[1..], k - 1, x, y) by {
        forall k | FirstAt(ss, k, x, y)
          ensures FirstAt(ss[1..], k - 1, x, y)
        {
          assert forall j :: 0 <= j < k - 1 ==> ss[1..][j] == ss[j + 1];
        }
      }
      assert HasAt(ss, x, y) ==> HasAt(ss[1..], x, y) by {
        if HasAt(ss, x, y) {
          var i :| 0 <= i < |ss| && At(ss[i], x, y);
          assert At(ss[1..][i - 1], x, y);
        }
      }
      assert HasAt(ss[1..], x, y) ==> HasAt(ss, x, y) by {
        if HasAt(ss[1..], x, y) {
          var i :| 0 <= i < |ss[1..]| && At(ss[1..][i], x, y);
          assert At(ss[i + 1], x, y);
        }
      }
      r
  }

  /** The label of the cell at `(x, y)`, or `None` when the cell is not opaque. */
  function LabelAt(ss: seq<Surface>, x: int, y: int): (r: Option<Label>)
    ensures r.Some? <==> HasAt(ss, x, y)
    ensures r.Some? && Distinct(ss) ==> forall i :: 0 <= i < |ss| && At(ss[i], x, y) ==> ss[i].mark == r.value
    ensures forall k {:trigger FirstAt(ss, k, x, y)} :: FirstAt(ss, k, x, y) ==> r == Some(ss[k].mark)
  {
    match Find(ss, x, y)
    case None => None
    case Some(s) => Some(s.mark)
  }

  /** `ss` with every surface at `(x, y)` removed. */
  function Without(ss: seq<Surface>, x: int, y: int): (r: seq<Surface>)
    ensures forall t :: t in r <==> t in ss && !At(t, x, y)
    ensures forall t :: multiset(r)[t] == if At(t, x, y) then 0 else multiset(ss)[t]
    ensures !HasAt(r, x, y)
    ensures IsSubsequence(r, ss)
    ensures |r| <= |ss|
    decreases |ss|
  {
    if |ss| == 0 then []
    else
      var rest := Without(ss[1..], x, y);
      assert ss == [ss[0]] + ss[1..];
      if At(ss[0], x, y) then
        rest
      else
        var r := [ss[0]] + rest;
        assert r[1..] == rest;
        r
  }

  /**
    A click on `(x, y)`: removes every surface there if one exists, and otherwise
    appends an opaque cell without a clue.
   */
  function Toggle(ss: seq<Surface>, x: int, y: int): (r: seq<Surface>)
    ensures !HasAt(ss, x, y) ==> r == ss + [Surface(x, y, Empty)]
    ensures HasAt(ss, x, y) ==> !HasAt(r, x, y) && IsSubsequence(r, ss)
    ensures HasAt(ss, x, y) ==> forall t :: t in r <==> t in ss && !At(t, x, y)
    ensures HasAt(ss, x, y) ==> forall t :: multiset(r)[t] == if At(t, x, y) then 0 else multiset(ss)[t]
  {
    if HasAt(ss, x, y) then Without(ss, x, y) else ss + [Surface(x, y, Empty)]
  }

  /**
    A key press on the cell at `(x, y)`: every surface there gets label `l`;
    nothing changes when the cell is not opaque.
   */
  function SetLabel(ss: seq<Surface>, x: int, y: int, l: Label): (r: seq<Surface>)
    ensures |r| == |ss|
    ensures !HasAt(ss, x, y) ==> r == ss
    ensures forall i :: 0 <= i < |ss| ==> r[i].x == ss[i].x && r[i].y == ss[i].y
    ensures forall i :: 0 <= i < |ss| && !At(ss[i], x, y) ==> r[i] == ss[i]
    ensures forall i :: 0 <= i < |ss| && At(ss[i], x, y) ==> r[i].mark == l
  {
    if !HasAt(ss, x, y) then ss
    else seq(|ss|, i requires 0 <= i < |ss| => if At(ss[i], x, y) then ss[i].(mark := l) else ss[i])
  }

  // ---------------------------------------------------------------------------
  // Lookup across concatenation and removal
  // ---------------------------------------------------------------------------

  /** Searching `a + b` finds the first match of `a`, or failing that of `b`. */
  lemma {:induction false} FindAppend(a: seq<Surface>, b: seq<Surface>, x: int, y: int)
    ensures Find(a + b, x, y) == if HasAt(a, x, y) then Find(a, x, y) else Find(b, x, y)
    decreases |a|
  {
    if |a| == 0 {
      assert a + b == b;
    } else if !At(a[0], x, y) {
      assert (a + b)[1..] == a[1..] + b;
      FindAppend(a[1..], b, x, y);
      assert Find(a, x, y) == Find(a[1..], x, y);
    } else {
      assert (a + b)[0] == a[0];
    }
  }

  /** The cell seen at a coordinate after appending a surface. */
  lemma LabelAtSnoc(ss: seq<Surface>, t: Surface, x: int, y: int)
    ensures LabelAt(ss + [t], x, y)
         == if HasAt(ss, x, y) then LabelAt(ss, x, y) else if At(t, x, y) then Some(t.mark) else None
  {
    FindAppend(ss, [t], x, y);
  }

  /** Removal distributes over concatenation. */
  lemma {:induction false} WithoutAppend(a: seq<Surface>, b: seq<Surface>, x: int, y: int)
    ensures Without(a + b, x, y) == Without(a, x, y) + Without(b, x, y)
    decreases |a|
  {
    if |a| > 0 {
      assert (a + b)[1..] == a[1..] + b;
      WithoutAppend(a[1..], b, x, y);
    } else {
      assert a + b == b;
    }
  }

  /** Removing from a list with nothing at `(x, y)` returns it unchanged. */
  lemma {:induction false} WithoutAbsent(ss: seq<Surface>, x: int, y: int)
    requires !HasAt(ss, x, y)
    ensures Without(ss, x, y) == ss
    decreases |ss|
  {
    if |ss| > 0 {
      assert !At(ss[0], x, y);
      assert !HasAt(ss[1..], x, y) by {
        forall i | 0 <= i < |ss[1..]| ensures !At(ss[1..][i], x, y) {
          assert ss[1..][i] == ss[i + 1];
        }
      }
      WithoutAbsent(ss[1..], x, y);
      assert Without(ss, x, y) == [ss[0]] + Without(ss[1..], x, y);
      assert ss == [ss[0]] + ss[1..];
    }
  }

  /** Removal at `(x, y)` keeps every other coordinate's cell as it was. */
  lemma {:induction false} WithoutLabelAt(ss: seq<Surface>, x: int, y: int, a: int, b: int)
    requires (a, b) != (x, y)
    ensures LabelAt(Without(ss, x, y), a, b) == LabelAt(ss, a, b)
    decreases |ss|
  {
    if |ss| > 0 {
      WithoutLabelAt(ss[1..], x, y, a, b);
      if !At(ss[0], x, y) {
        assert Without(ss, x, y) == [ss[0]] + Without(ss[1..], x, y);
        assert ([ss[0]] + Without(ss[1..], x, y))[1..] == Without(ss[1..], x, y);
      }
    }
  }

  /** The tail of a list with one surface per coordinate has the same property. */
  lemma DistinctTail(ss: seq<Surface>)
    requires |ss| > 0 && Distinct(ss)
    ensures Distinct(ss[1..])
    ensures forall t :: t in ss[1..] ==> !At(t, ss[0].x, ss[0].y)
  {
    forall i, j | 0 <= i < j < |ss[1..]| ensures !At(ss[1..][j], ss[1..][i].x, ss[1..][i].y) {
      assert ss[1..][j] == ss[j + 1] && ss[1..][i] == ss[i + 1];
    }
    forall t | t in ss[1..] ensures !At(t, ss[0].x, ss[0].y) {
      var k :| 0 <= k < |ss[1..]| && ss[1..][k] == t;
      assert ss[k + 1] == t;
    }
  }

  /** A surface in front of a list with one surface per coordinate, at a coordinate the list does not use. */
  lemma DistinctCons(s: Surface, rest: seq<Surface>)
    requires Distinct(rest)
    requires forall t :: t in rest ==> !At(t, s.x, s.y)
    ensures Distinct([s] + rest)
  {
    var r := [s] + rest;
    forall i, j | 0 <= i < j < |r| ensures !At(r[j], r[i].x, r[i].y) {
      assert r[j] == rest[j - 1];
      if i > 0 {
        assert r[i] == rest[i - 1];
      }
    }
  }

  /** Removal keeps the one-surface-per-coordinate invariant. */
  lemma {:induction false} WithoutDistinct(ss: seq<Surface>, x: int, y: int)
    requires Distinct(ss)
    ensures Distinct(Without(ss, x, y))
    decreases |ss|
  {
    if |ss| > 0 {
      DistinctTail(ss);
      WithoutDistinct(ss[1..], x, y);
      if !At(ss[0], x, y) {
        DistinctCons(ss[0], Without(ss[1..], x, y));
      }
    }
  }

  // ---------------------------------------------------------------------------
  // Toggle
  // ---------------------------------------------------------------------------

  /** After a click, `(x, y)` is opaque without a clue exactly when it was not opaque before. */
  lemma ToggleLabelAt(ss: seq<Surface>, x: int, y: int)
    ensures LabelAt(Toggle(ss, x, y), x, y) == if HasAt(ss, x, y) then None else Some(Empty)
  {
    if !HasAt(ss, x, y) {
      LabelAtSnoc(ss, Surface(x, y, Empty), x, y);
    }
  }

  /** A click on `(x, y)` leaves the cell at every other coordinate as it was. */
  lemma ToggleElsewhere(ss: seq<Surface>, x: int, y: int, a: int, b: int)
    requires (a, b) != (x, y)
    ensures LabelAt(Toggle(ss, x, y), a, b) == LabelAt(ss, a, b)
  {
    if HasAt(ss, x, y) {
      WithoutLabelAt(ss, x, y, a, b);
    } else {
      LabelAtSnoc(ss, Surface(x, y, Empty), a, b);
    }
  }

  /** A click keeps at most one surface per coordinate. */
  lemma ToggleDistinct(ss: seq<Surface>, x: int, y: int)
    requires Distinct(ss)
    ensures Distinct(Toggle(ss, x, y))
  {
    if HasAt(ss, x, y) {
      WithoutDistinct(ss, x, y);
    } else {
      var r := ss + [Surface(x, y, Empty)];
      forall i, j | 0 <= i < j < |r| ensures !At(r[j], r[i].x, r[i].y) {
        if j == |ss| {
          assert !At(ss[i], x, y);
        }
      }
    }
  }

  /** Two clicks on a cell that was not opaque give back the original list. */
  lemma ToggleTwiceUnmarked(ss: seq<Surface>, x: int, y: int)
    requires !HasAt(ss, x, y)
    ensures Toggle(Toggle(ss, x, y), x, y) == ss
  {
    var t := Surface(x, y, Empty);
    assert HasAt(ss + [t], x, y) by { assert At((ss + [t])[|ss|], x, y); }
    WithoutAppend(ss, [t], x, y);
    WithoutAbsent(ss, x, y);
    assert Without([t], x, y) == [];
  }

  /**
    Two clicks on an opaque cell leave it opaque but without a clue: the
    surfaces there are replaced by one `Empty` surface appended at the end.
   */
  lemma ToggleTwiceMarked(ss: seq<Surface>, x: int, y: int)
    requires HasAt(ss, x, y)
    ensures Toggle(Toggle(ss, x, y), x, y) == Without(ss, x, y) + [Surface(x, y, Empty)]
    ensures LabelAt(Toggle(Toggle(ss, x, y), x, y), x, y) == Some(Empty)
  {
    ToggleLabelAt(Toggle(ss, x, y), x, y);
  }

  // ---------------------------------------------------------------------------
  // SetLabel
  // ---------------------------------------------------------------------------

  /** Lists with the same coordinates, position by position, have the same opaque cells. */
  lemma {:induction false} SameCoordinatesHasAt(ss: seq<Surface>, r: seq<Surface>, a: int, b: int)
    requires |r| == |ss|
    requires forall i :: 0 <= i < |ss| ==> r[i].x == ss[i].x && r[i].y == ss[i].y
    ensures HasAt(r, a, b) <==> HasAt(ss, a, b)
  {
    if HasAt(r, a, b) {
      var i :| 0 <= i < |r| && At(r[i], a, b);
      assert At(ss[i], a, b);
    }
    if HasAt(ss, a, b) {
      var i :| 0 <= i < |ss| && At(ss[i], a, b);
      assert At(r[i], a, b);
    }
  }

  /** Relabelling `(x, y)` makes its cell carry `l`, if it is opaque, and changes no cell's opacity. */
  lemma SetLabelLabelAt(ss: seq<Surface>, x: int, y: int, l: Label)
    ensures LabelAt(SetLabel(ss, x, y, l), x, y) == if HasAt(ss, x, y) then Some(l) else None
    ensures forall a, b :: HasAt(SetLabel(ss, x, y, l), a, b) <==> HasAt(ss, a, b)
  {
    var r := SetLabel(ss, x, y, l);
    forall a, b ensures HasAt(r, a, b) <==> HasAt(ss, a, b) {
      SameCoordinatesHasAt(ss, r, a, b);
    }
    var f := Find(r, x, y);
    if f.Some? {
      var i :| 0 <= i < |r| && r[i] == f.value;
      assert At(ss[i], x, y);
    }
  }

  /** Relabelling `(x, y)` leaves the cell at every other coordinate as it was. */
  lemma {:induction false} SetLabelElsewhere(ss: seq<Surface>, x: int, y: int, l: Label, a: int, b: int)
    requires (a, b) != (x, y)
    ensures LabelAt(SetLabel(ss, x, y, l), a, b) == LabelAt(ss, a, b)
  {
    var r := SetLabel(ss, x, y, l);
    SameCoordinatesHasAt(ss, r, a, b);
    if HasAt(ss, a, b) {
      FindSameAt(ss, r, a, b);
    }
  }

  /**
    Two lists that agree, position by position, on coordinates, and on every
    surface at `(a, b)`, find the same surface at `(a, b)`.
   */
  lemma {:induction false} FindSameAt(ss: seq<Surface>, r: seq<Surface>, a: int, b: int)
    requires |r| == |ss|
    requires forall i :: 0 <= i < |ss| ==> r[i].x == ss[i].x && r[i].y == ss[i].y
    requires forall i :: 0 <= i < |ss| && At(ss[i], a, b) ==> r[i] == ss[i]
    ensures Find(r, a, b) == Find(ss, a, b)
    decreases |ss|
  {
    if |ss| > 0 && !At(ss[0], a, b) {
      FindSameAt(ss[1..], r[1..], a, b);
    }
  }

  /** Relabelling keeps at most one surface per coordinate. */
  lemma SetLabelDistinct(ss: seq<Surface>, x: int, y: int, l: Label)
    requires Distinct(ss)
    ensures Distinct(SetLabel(ss, x, y, l))
  {
  }

  /** Only the last of two relabellings of one cell counts. */
  lemma SetLabelTwice(ss: seq<Surface>, x: int, y: int, l: Label, l': Label)
    ensures SetLabel(SetLabel(ss, x, y, l), x, y, l') == SetLabel(ss, x, y, l')
  {
    var r := SetLabel(ss, x, y, l);
    SetLabelLabelAt(ss, x, y, l);
  }

  /** A click on a relabelled cell removes it, clue and all, exactly as it would have before. */
  lemma {:induction false} ToggleAfterSetLabel(ss: seq<Surface>, x: int, y: int, l: Label)
    ensures Toggle(SetLabel(ss, x, y, l), x, y) == Toggle(ss, x, y)
  {
    SetLabelLabelAt(ss, x, y, l);
    if HasAt(ss, x, y) {
      WithoutSameElsewhere(ss, SetLabel(ss, x, y, l), x, y);
    }
  }

  /**
    Two lists that agree, position by position, on coordinates, and on every
    surface away from `(x, y)`, are equal once `(x, y)` is cleared.
   */
  lemma {:induction false} WithoutSameElsewhere(ss: seq<Surface>, r: seq<Surface>, x: int, y: int)
    requires |r| == |ss|
    requires forall i :: 0 <= i < |ss| ==> r[i].x == ss[i].x && r[i].y == ss[i].y
    requires forall i :: 0 <= i < |ss| && !At(ss[i], x, y) ==> r[i] == ss[i]
    ensures Without(r, x, y) == Without(ss, x, y)
    decreases |ss|
  {
    if |ss| > 0 {
      WithoutSameElsewhere(ss[1..], r[1..], x, y);
    }
  }
}

=== FILE: viewer.dfy ===
/**
  The identifier as the puzzle's own format reads it: every letter 'a'..'z'
  stands for that many cells that are not opaque (1 to 26) on its own, 'B'
  and '0'..'4' stand for one opaque cell, and no other character may appear
  in the body. The backtick the editor writes at the end of a run whose
  length is a multiple of 26 is not part of that alphabet. This module
  states the discrepancy and proves a corrected encoder that writes only
  letters.
 */
module Viewer {
  import opened Wrappers
  import opened Surfaces
  import opened Runs
  import opened Scan
  import opened GameIds
  import opened Decoder

  predicate IsLetter(c: char) {
    'a' <= c <= 'z'
  }

  /** `a` in front of a successful reading; a failure is passed on. */
  function Prepend(a: seq<Cell>, r: Result<seq<Cell>, DecodeError>): Result<seq<Cell>, DecodeError> {
    match r
    case Success(cells) => Success(a + cells)
    case Failure(e) => Failure(e)
  }

  /** The cells one body character stands for. */
  function CharCells(c: char): seq<Cell>
    requires IsLetter(c) || IsMarkChar(c)
  {
    if IsLetter(c) then Blanks(c as int - 96) else [MarkLabel(c)]
  }

  /**
    Reads a body character by character; `at` is the position of `t` in the
    identifier. Fails at the first character outside the alphabet.
   */
  function ReadCells(t: string, at: nat): Result<seq<Cell>, DecodeError>
    decreases |t|
  {
    if |t| == 0 then Success([])
    else if IsLetter(t[0]) || IsMarkChar(t[0]) then Prepend(CharCells(t[0]), ReadCells(t[1..], at + 1))
    else Failure(MalformedIdentifier(at))
  }

  /** A body reads successfully only if every character is in the alphabet. */
  lemma {:induction false} ReadCellsAlphabet(t: string, at: nat)
    requires ReadCells(t, at).Success?
    ensures forall i :: 0 <= i < |t| ==> IsLetter(t[i]) || IsMarkChar(t[i])
    decreases |t|
  {
    if |t| > 0 {
      ReadCellsAlphabet(t[1..], at + 1);
      forall i | 1 <= i < |t| ensures IsLetter(t[i]) || IsMarkChar(t[i]) {
        assert t[i] == t[1..][i - 1];
      }
    }
  }

  /** Decodes an identifier by the puzzle format's alphabet. */
  function Decode(id: string): (r: Result<Layout, DecodeError>)
    ensures r.Success? ==> r.value.width >= 1 && r.value.height >= 1
    ensures r.Success? ==> |r.value.cells| == r.value.width * r.value.height
  {
    match ParseHeader(id)
    case Failure(e) => Failure(e)
    case Success((w, h, start)) =>
      match ReadCells(id[start..], start)
      case Failure(e) => Failure(e)
      case Success(cells) =>
        if |cells| != w * h then Failure(MalformedIdentifier(|id|))
        else Success(Layout(w, h, cells))
  }

  /** After the editor's header, decoding is reading the body and checking its size. */
  lemma DecodeAfterHeader(w: nat, h: nat, body: string)
    requires w >= 1 && h >= 1
    ensures ReadCells(body, |Header(w, h)|).Failure? ==> Decode(Header(w, h) + body).Failure?
    ensures ReadCells(body, |Header(w, h)|).Success? && |ReadCells(body, |Header(w, h)|).value| == w * h
      ==> Decode(Header(w, h) + body) == Success(Layout(w, h, ReadCells(body, |Header(w, h)|).value))
  {
    ParseHeaderOf(w, h, body);
    assert (Header(w, h) + body)[|Header(w, h)|..] == body;
  }

  /** One character of the alphabet in front of a text. */
  lemma ReadCellsCons(c: char, rest: string, at: nat)
    requires IsLetter(c) || IsMarkChar(c)
    ensures ReadCells([c] + rest, at) == Prepend(CharCells(c), ReadCells(rest, at + 1))
  {
    assert ([c] + rest)[1..] == rest;
  }

  lemma PrependTwice(a: seq<Cell>, b: seq<Cell>, r: Result<seq<Cell>, DecodeError>)
    ensures Prepend(a, Prepend(b, r)) == Prepend(a + b, r)
  {
    if r.Success? {
      assert a + (b + r.value) == (a + b) + r.value;
    }
  }

  // ---------------------------------------------------------------------------
  // The editor's run tokens against the alphabet
  // ---------------------------------------------------------------------------

  /** Some run of the token sequence is a multiple of 26 long (the scan's runs are never empty). */
  predicate HasFullRun(items: seq<Item>) {
    exists i :: 0 <= i < |items| && items[i].Run? && items[i].length % 26 == 0
  }

  /** A run whose length is a multiple of 26 puts a backtick into the text. */
  lemma {:induction false} BacktickInRender(items: seq<Item>, i: nat)
    requires i < |items| && items[i].Run? && items[i].length % 26 == 0
    ensures exists j :: 0 <= j < |Render(items)| && Render(items)[j] == '`'
    decreases i
  {
    var p, rest := Piece(items[0]), Render(items[1..]);
    assert Render(items) == p + rest;
    if i == 0 {
      assert Render(items)[|p| - 1] == '`';
    } else {
      BacktickInRender(items[1..], i - 1);
      var j :| 0 <= j < |rest| && rest[j] == '`';
      assert Render(items)[|p| + j] == '`';
    }
  }

  /** With a run that is a multiple of 26, the editor's identifier is refused. */
  lemma GameIdRefusedWithFullRun(w: nat, h: nat, ss: seq<Surface>)
    requires w >= 1 && h >= 1
    requires HasFullRun(Items(Cells(ss, w, h), 0))
    ensures Decode(GameId(w, h, ss)).Failure?
  {
    var items := Items(Cells(ss, w, h), 0);
    var i :| 0 <= i < |items| && items[i].Run? && items[i].length % 26 == 0;
    BacktickInRender(items, i);
    if ReadCells(Body(w, h, ss), |Header(w, h)|).Success? {
      ReadCellsAlphabet(Body(w, h, ss), |Header(w, h)|);
    }
    DecodeAfterHeader(w, h, Body(w, h, ss));
  }

  /** Without such a run, the editor's identifier decodes to its grid. */
  lemma GameIdAcceptedWithoutFullRun(w: nat, h: nat, ss: seq<Surface>)
    requires w >= 1 && h >= 1
    requires !HasFullRun(Items(Cells(ss, w, h), 0))
    ensures Decode(GameId(w, h, ss)) == Success(Layout(w, h, Cells(ss, w, h)))
  {
    LetterRenderAgrees(Items(Cells(ss, w, h), 0));
    DecodeCorrectedGameId(w, h, ss);
  }

  /**
    The editor's identifier is refused by the puzzle format exactly when the
    scan flushes a run whose length is a multiple of 26.
   */
  lemma GameIdRefused(w: nat, h: nat, ss: seq<Surface>)
    requires w >= 1 && h >= 1
    ensures Decode(GameId(w, h, ss)).Failure? <==> HasFullRun(Items(Cells(ss, w, h), 0))
  {
    if HasFullRun(Items(Cells(ss, w, h), 0)) {
      GameIdRefusedWithFullRun(w, h, ss);
    } else {
      GameIdAcceptedWithoutFullRun(w, h, ss);
    }
  }

  /** The body of the smallest such identifier is refused at its backtick. */
  lemma ReadRunOf26Body()
    ensures ReadCells("z`", 5) == Failure(MalformedIdentifier(6))
  {
    assert "z`" == ['z'] + "`";
    ReadCellsCons('z', "`", 5);
    assert ReadCells("`", 6) == Failure(MalformedIdentifier(6));
  }

  /** The smallest case: a single row of 26 cells, none opaque. */
  lemma ExampleRunOf26Refused()
    ensures Decode(GameId(26, 1, [])) == Failure(MalformedIdentifier(6))
  {
    ExampleRunOf26();
    Header26By1();
    ParseHeaderOf(26, 1, "z`");
    assert GameId(26, 1, []) == Header(26, 1) + "z`";
    assert GameId(26, 1, [])[5..] == "z`";
    ReadRunOf26Body();
  }

  /** Two rows of 13 empty cells: the run of 26 spans the row break and is refused at the backtick. */
  lemma ExampleThirteenByTwoRefused()
    ensures Decode(GameId(13, 2, [])) == Failure(MalformedIdentifier(6))
  {
    ExampleThirteenByTwo();
    Header13By2();
    ParseHeaderOf(13, 2, "z`");
    assert GameId(13, 2, []) == Header(13, 2) + "z`";
    assert GameId(13, 2, [])[5..] == "z`";
    ReadRunOf26Body();
  }

  // ---------------------------------------------------------------------------
  // The corrected encoder
  // ---------------------------------------------------------------------------

  /**
    The corrected run token: one 'z' per 26 cells, then the letter for the
    remainder, and no further character when the remainder is 0.
   */
  function LetterRun(n: nat): string {
    seq(n / 26, _ => 'z') + (if n % 26 == 0 then [] else [(96 + n % 26) as char])
  }

  /**
    The corrected token is the editor's token whenever the remainder is not 0,
    and the editor's token without its trailing backtick otherwise.
   */
  lemma LetterRunMatches(n: nat)
    ensures forall i :: 0 <= i < |LetterRun(n)| ==> IsLetter(LetterRun(n)[i])
    ensures n % 26 != 0 ==> LetterRun(n) == SerializeRun(n)
    ensures n % 26 == 0 ==> LetterRun(n) + "`" == SerializeRun(n)
  {
    assert SerializeRun(n)[..n / 26] == LetterRun(n)[..n / 26];
  }

  /** A run 26 longer is written with one more 'z' in front. */
  lemma LetterRunStep(n: nat)
    requires n >= 26
    ensures LetterRun(n) == ['z'] + LetterRun(n - 26)
  {
    assert (n - 26) / 26 == n / 26 - 1 && (n - 26) % 26 == n % 26;
    assert seq(n / 26, _ => 'z') == ['z'] + seq((n - 26) / 26, _ => 'z');
  }

  /** A corrected token of fewer than 26 cells is at most one letter. */
  lemma ReadShortLetterRun(n: nat, rest: string, at: nat)
    requires n < 26
    ensures ReadCells(LetterRun(n) + rest, at) == Prepend(Blanks(n), ReadCells(rest, at + |LetterRun(n)|))
  {
    if n == 0 {
      assert LetterRun(0) == [];
      assert LetterRun(0) + rest == rest;
      var after := ReadCells(rest, at);
      if after.Success? {
        assert Blanks(0) + after.value == after.value;
      }
    } else {
      var c := (96 + n) as char;
      assert LetterRun(n) == [c];
      assert CharCells(c) == Blanks(n);
      ReadCellsCons(c, rest, at);
    }
  }

  /** The step of the induction below: one more 'z' reads as 26 more cells. */
  lemma ReadLongLetterRun(n: nat, rest: string, at: nat)
    requires n >= 26
    requires ReadCells(LetterRun(n - 26) + rest, at + 1)
          == Prepend(Blanks(n - 26), ReadCells(rest, at + 1 + |LetterRun(n - 26)|))
    ensures ReadCells(LetterRun(n) + rest, at) == Prepend(Blanks(n), ReadCells(rest, at + |LetterRun(n)|))
  {
    LetterRunStep(n);
    var tail := LetterRun(n - 26) + rest;
    var after := ReadCells(rest, at + 1 + |LetterRun(n - 26)|);
    assert LetterRun(n) + rest == ['z'] + tail;
    assert CharCells('z') == Blanks(26);
    ReadCellsCons('z', tail, at);
    PrependTwice(Blanks(26), Blanks(n - 26), after);
    assert Blanks(26) + Blanks(n - 26) == Blanks(n);
  }

  /** Every corrected run token reads back as its run, whatever follows it. */
  lemma {:induction false} ReadLetterRun(n: nat, rest: string, at: nat)
    ensures ReadCells(LetterRun(n) + rest, at) == Prepend(Blanks(n), ReadCells(rest, at + |LetterRun(n)|))
    decreases n
  {
    if n >= 26 {
      ReadLetterRun(n - 26, rest, at + 1);
      ReadLongLetterRun(n, rest, at);
    } else {
      ReadShortLetterRun(n, rest, at);
    }
  }

  function LetterPiece(item: Item): string {
    match item
    case Run(n) => LetterRun(n)
    case Mark(l) => [Token(l)]
  }

  function LetterRender(items: seq<Item>): string
    decreases |items|
  {
    if |items| == 0 then [] else LetterPiece(items[0]) + LetterRender(items[1..])
  }

  /** The corrected identifier: the same header and scan, with letter-only run tokens. */
  function CorrectedGameId(w: nat, h: nat, ss: seq<Surface>): string {
    Header(w, h) + LetterRender(Items(Cells(ss, w, h), 0))
  }

  /** Any corrected token in front of a text reads as the cells it stands for. */
  lemma ReadLetterPiece(item: Item, rest: string, at: nat)
    ensures ReadCells(LetterPiece(item) + rest, at) == Prepend(Expand([item]), ReadCells(rest, at + |LetterPiece(item)|))
  {
    match item
    case Run(n) =>
      assert Expand([item]) == Blanks(n) by {
        assert [item][1..] == [];
        assert Blanks(n) + [] == Blanks(n);
      }
      ReadLetterRun(n, rest, at);
    case Mark(l) =>
      assert Expand([item]) == [Some(l)] by {
        assert [item][1..] == [];
        assert [Some(l)] + [] == [Some(l)];
      }
      MarkLabelToken(l);
      ReadCellsCons(Token(l), rest, at);
  }

  /** Corrected tokens read back as the cells they stand for. */
  lemma {:induction false} ReadLetterRender(items: seq<Item>, at: nat)
    ensures ReadCells(LetterRender(items), at) == Success(Expand(items))
    decreases |items|
  {
    if |items| > 0 {
      var p, rest := LetterPiece(items[0]), LetterRender(items[1..]);
      assert LetterRender(items) == p + rest;
      ReadLetterRender(items[1..], at + |p|);
      ReadLetterPiece(items[0], rest, at);
      ExpandAppend([items[0]], items[1..]);
      assert [items[0]] + items[1..] == items;
    }
  }

  /** Without a run that is a multiple of 26, the two encoders write the same text. */
  lemma {:induction false} LetterRenderAgrees(items: seq<Item>)
    requires !HasFullRun(items)
    ensures LetterRender(items) == Render(items)
    decreases |items|
  {
    if |items| > 0 {
      assert !HasFullRun(items[1..]) by {
        forall i | 0 <= i < |items| - 1 && items[1..][i].Run?
          ensures items[1..][i].length % 26 != 0
        {
          assert items[1..][i] == items[i + 1];
        }
      }
      LetterRenderAgrees(items[1..]);
      if items[0].Run? {
        assert items[0].length % 26 != 0;
        LetterRunMatches(items[0].length);
      }
    }
  }

  /**
    Round trip for the corrected encoder: the puzzle format decodes the
    corrected identifier of any grid of at least one cell to that grid.
   */
  lemma DecodeCorrectedGameId(w: nat, h: nat, ss: seq<Surface>)
    requires w >= 1 && h >= 1
    ensures Decode(CorrectedGameId(w, h, ss)) == Success(Layout(w, h, Cells(ss, w, h)))
  {
    var body := LetterRender(Items(Cells(ss, w, h), 0));
    DecodeAfterHeader(w, h, body);
    ReadLetterRender(Items(Cells(ss, w, h), 0), |Header(w, h)|);
    assert Blanks(0) + Cells(ss, w, h) == Cells(ss, w, h);
    CellsLength(ss, w, h);
  }

  /**
    The corrected identifier differs from the editor's exactly when the scan
    flushes a run whose length is a multiple of 26.
   */
  lemma CorrectedGameIdAgrees(w: nat, h: nat, ss: seq<Surface>)
    requires w >= 1 && h >= 1
    ensures CorrectedGameId(w, h, ss) == GameId(w, h, ss) <==> !HasFullRun(Items(Cells(ss, w, h), 0))
  {
    GameIdRefused(w, h, ss);
    DecodeCorrectedGameId(w, h, ss);
    if !HasFullRun(Items(Cells(ss, w, h), 0)) {
      LetterRenderAgrees(Items(Cells(ss, w, h), 0));
    }
  }

  /** A grid of one row and no surfaces: the corrected identifier is one run token after the header. */
  lemma CorrectedEmptyRow(w: nat)
    requires w > 0
    ensures CorrectedGameId(w, 1, []) == Header(w, 1) + LetterRun(w)
  {
    RowWithoutSurfaces(w, 0);
    assert Cells([], w, 1) == Blanks(w);
    ItemsBlanks(w, 0);
    assert LetterRender([Run(w)]) == LetterRun(w) + [];
  }

  /** The corrected identifier of a single row of 26 cells, none opaque. */
  lemma ExampleCorrectedRunOf26()
    ensures CorrectedGameId(26, 1, []) == "26x1:z"
  {
    CorrectedEmptyRow(26);
    assert LetterRun(26) == "z" by {
      assert seq(1, _ => 'z') == "z";
    }
    Header26By1();
  }
}

=== FILE: wrappers.dfy ===
/** Failure-carrying result types shared by the editor model. */
module Wrappers {

  /** A value that may be absent, as the result of a search. */
  datatype Option<+T> = None | Some(value: T)

  /** The outcome of a computation that can fail with an error value. */
  datatype Result<+R, +E> = Success(value: R) | Failure(error: E)
}
